=== FILE: README.md ===
# Shop storefront core in Dafny

This project models the client-side logic of a small Next.js storefront and proves
properties of it. Five pieces are covered:

- **The shop store** (`ShopProvider` in `src/context/ShopContext.tsx`). It holds a cart of
  product id to quantity and a favourites set. It offers add, remove, toggle and the
  query operations `getQty`, `isFavorite`, `cartCount` and `favoritesCount`. It also
  persists itself: it loads a `{cart, favorites}` snapshot from browser storage under
  `shop-state:v1`, replaces memory with it, marks itself hydrated, and from then on
  writes the full snapshot after every change.
- **The catalogue filter** of `ProductGrid`. The `q` parameter is lower-cased and
  trimmed, then matched as a substring of the lower-cased name, description or a tag.
  The `cat` parameter is matched exactly.
- **The two carousels.** `BannerRotator` has `go(dir)`, the autoplay tick, keyboard and
  dot navigation, and manual and hover pause. `BannerSlider` has the tick and the
  hover/focus pause. Their indices are JavaScript numbers; in `BannerRotator` an empty
  list makes the index NaN.
- **The sidebar.** It covers the active-link rule, the `cat` and `q` query parameters it
  writes, the panel's open/close events, and its `aria-hidden`/`tabIndex`.
- **The product card.** It covers the availability badge, the price area or its
  fallback note, the quantity badge, and its two buttons.

Modules:

- `Wrappers`: `Option` for JavaScript's `null`.
- `JsNumber`: integer-valued numbers with NaN and the truncating `%`.
- `Text`: `trim`, `toLowerCase` and `includes`.
- `SearchParams`: `URLSearchParams` get, set and delete.
- `Cart`, `Persistence` and `ShopStore`: the store.
- `Carousel`: index arithmetic shared by `BannerRotator` and `BannerSlider`.
- `ProductGrid`, `ProductCard` and `SideBar`.

Side effects are parameters:

- The storage slot is a value.
- Whether a write succeeds is a boolean.
- The order `Array.from` lists the favourites in is a sequence. `IsListing` requires it to
  list each favourite exactly once.
- Each timer firing is an event.
- The viewport and `prefers-reduced-motion` are inputs.

Two behaviours of the code worth noting:

- A stored snapshot whose `cart` is a truthy non-object (`{"cart":"oops"}`) is kept as it
  is; `parsed.cart || {}` does not reset it to an empty cart
  (`Persistence.WrongTypedCartIsKept`). The model marks such a cart `Untracked`, and as a
  modelling choice keeps it untracked under every later operation (see "Left out").
- A product's quantity is not `max(0, total added - total removed)`. Removal clamps at
  each step, so removing before adding does not cancel the add (`Cart.ClampIsPerStep`).

## Model

| member | source | states |
|---|---|---|
| Cart.GetQty | src/context/ShopContext.tsx:111 | The quantity is the stored value for a stored id and 0 for any other id. |
| Cart.AddToCart | src/context/ShopContext.tsx:83-85 | The id's quantity becomes its old quantity (0 when absent) plus `qty`. The key set gains only this id. Every other id keeps its quantity. |
| Cart.RemoveFromCart | src/context/ShopContext.tsx:87-96 | When old minus `qty` is positive it is stored. Otherwise the entry is deleted, not stored as 0. No new key appears, and every other entry, a stored 0 included, is left exactly as it was. |
| Cart.RemoveQty | src/context/ShopContext.tsx:90-93 | After a remove, the id's quantity is `max(0, old - qty)`. |
| Cart.RemoveAbsent | src/context/ShopContext.tsx:87-96 | Removing a non-negative amount of an absent id leaves the cart unchanged. |
| Cart.IsFavorite | src/context/ShopContext.tsx:107-110 | `isFavorite(id)` holds exactly when `id` is in the set, and then `favoritesCount` is not zero. |
| Cart.ToggleFavorite | src/context/ShopContext.tsx:98-105 | The id's membership flips and no other id's membership changes. |
| Cart.ToggleTwice | src/context/ShopContext.tsx:98-105 | Toggling the same id twice restores the original set. |
| Cart.ToggleCount | src/context/ShopContext.tsx:98-105 | A toggle changes `favoritesCount` by exactly one, down when the id was a favourite and up otherwise. |
| Cart.FavoritesCount | src/context/ShopContext.tsx:117 | The count is the set's size and is zero exactly for the empty set. |
| Cart.CartCount | src/context/ShopContext.tsx:113-116 | `cartCount` of the empty cart is 0, and with no negative quantity it is never negative. |
| Cart.CartCountSplit | src/context/ShopContext.tsx:113-116 | The sum of quantities does not depend on visiting order: any entry can be split off the total. |
| Cart.AddToCartCount | src/context/ShopContext.tsx:113-116 | `addToCart(id, qty)` raises `cartCount` by exactly `qty`. |
| Cart.RemoveFromCartCount | src/context/ShopContext.tsx:87-96 | A remove lowers `cartCount` by `qty` when the entry survives, or by the whole old quantity when it is deleted. |
| Cart.CartCountBound | src/context/ShopContext.tsx:113-116 | With positive quantities, `cartCount` is at least the number of distinct products in the cart. |
| Cart.AddKeepsPositive | src/context/ShopContext.tsx:84 | Adding `qty >= 1` to a cart of positive quantities keeps every quantity positive. |
| Cart.RemoveKeepsPositive | src/context/ShopContext.tsx:92-93 | A remove of any amount never stores a non-positive quantity. |
| Cart.AddZeroBreaksPositive | src/context/ShopContext.tsx:84 | `addToCart` does not guard its amount: adding 0 to an absent id stores a zero quantity. |
| Cart.AddThenRemove | src/context/ShopContext.tsx:83-96 | On a cart of positive quantities, removing what was just added restores the cart exactly, including when the id was absent. |
| Cart.ClampIsPerStep | src/context/ShopContext.tsx:87-96 | Remove-then-add of one unit on an empty cart leaves 1, while add-then-remove leaves 0. |
| Persistence.FavoritesOf | src/context/ShopContext.tsx:45 | `new Set(favorites \|\| [])`: a falsy field gives the empty set and an array gives exactly its elements. A string gives the set of its one-character strings. |
| Persistence.CartOf | src/context/ShopContext.tsx:44 | `cart \|\| {}`: a falsy cart gives an empty cart and a map is kept. Any other truthy value is kept as an untracked cart. |
| Persistence.LoadState | src/context/ShopContext.tsx:35-50 | Gives nothing for a missing or empty slot, unreadable JSON (or JSON `null`), and a non-iterable `favorites`. Otherwise the cart is `CartOf` of the document's cart and the favourites are `FavoritesOf` of its favourites, so a missing field gives its empty default. |
| Persistence.Serialize | src/context/ShopContext.tsx:54-57 | The written document lists the favourites as an array in the given order. |
| Persistence.SaveState | src/context/ShopContext.tsx:52-60 | After a successful write, loading the slot gives back the same snapshot. A failed write is swallowed and leaves the slot unchanged. |
| Persistence.ListingOrderIrrelevant | src/context/ShopContext.tsx:56 | Any two orders of the favourites load back to the same state. |
| Persistence.FavoritesFromText | src/context/ShopContext.tsx:45 | A string stored as `favorites` loads as the set of its characters. |
| Persistence.WrongTypedCartIsKept | src/context/ShopContext.tsx:44 | A truthy cart that is not a map is kept as it is, not reset to `{}`. |
| ShopStore.Mount | src/context/ShopContext.tsx:63-65 | The store starts with an empty cart, no favourites and not hydrated, and storage is untouched. |
| ShopStore.ApplyCart | src/context/ShopContext.tsx:83-96 | On a tracked cart, `Add` is `addToCart` and `Remove` is `removeFromCart`. A favourite toggle leaves the cart alone. A cart the model does not track stays untracked. |
| ShopStore.ApplyFavorites | src/context/ShopContext.tsx:98-105 | Only a toggle changes the favourites. It flips the id's membership and no other id's. |
| ShopStore.Persist | src/context/ShopContext.tsx:77-81 | The effect never changes memory. Before hydration it never writes. After hydration a successful write makes storage load back to memory. |
| ShopStore.Update | src/context/ShopContext.tsx:83-105 | A state update leaves `hydrated` and storage unchanged. |
| ShopStore.Dispatch | src/context/ShopContext.tsx:77-105 | A mutation changes memory as its operation says and writes nothing before hydration. After hydration a successful write stores the new memory, and a failed write is swallowed, leaving storage as it was. |
| ShopStore.Hydrated | src/context/ShopContext.tsx:68-74 | Hydration sets `hydrated` and does not write storage itself. |
| ShopStore.Hydrate | src/context/ShopContext.tsx:67-81 | A loaded snapshot replaces memory wholesale. Without one, memory is kept. The persist run that follows then writes memory, or leaves storage unchanged if the write fails. |
| ShopStore.MutationBeforeHydrationIsOverwritten | src/context/ShopContext.tsx:67-75 | A change made before hydration is lost when a snapshot loads, because the snapshot is not merged. |
| ShopStore.MutationBeforeEmptyHydrationSurvives | src/context/ShopContext.tsx:67-81 | With nothing stored, a change made before hydration survives and is written once hydrated. |
| ShopStore.ReloadRestoresMemory | src/context/ShopContext.tsx:35-81 | After a successful persist, a fresh mount hydrates to the same memory. |
| ShopStore.DispatchKeepsMirror | src/context/ShopContext.tsx:77-81 | Once storage mirrors memory, every mutation with a successful write keeps it mirrored. |
| ShopStore.DispatchKeepsValid | src/context/ShopContext.tsx:83-96 | Every mutation keeps cart quantities positive, as long as adds use a positive amount. |
| ShopStore.HydrateFromOwnSnapshotIsValid | src/context/ShopContext.tsx:67-75 | A store hydrated from a snapshot of positive quantities keeps only positive quantities. |
| Text.LowerChar | src/components/ProductGrid.tsx:8 | An upper-case letter maps to its lower case, 0x20 above it. Any other character is unchanged. No result is upper case. |
| Text.Lower | src/components/ProductGrid.tsx:8 | `toLowerCase` keeps the length and lower-cases each character in place. |
| Text.LowerIdempotent | src/components/ProductGrid.tsx:8 | Lower-casing twice is lower-casing once. |
| Text.TrimStart | src/components/ProductGrid.tsx:8 | The result is a suffix: everything cut is whitespace, and it does not start with whitespace. |
| Text.TrimEnd | src/components/ProductGrid.tsx:8 | The result is a prefix: everything cut is whitespace, and it does not end with whitespace. |
| Text.Trim | src/components/ProductGrid.tsx:8 | `trim` is never longer than its input. It gives the empty string exactly when the input is all whitespace, and otherwise a string with no whitespace at either end. |
| Text.TrimShape | src/components/ProductGrid.tsx:8 | `trim` leaves the slice after the leading whitespace. The slice neither starts nor ends with whitespace, and only whitespace is cut on either side. |
| Text.TrimIdempotent | src/components/ProductGrid.tsx:8 | Trimming twice is trimming once. |
| Text.LowerHasNoUpper | src/components/ProductGrid.tsx:8 | `toLowerCase` leaves no upper-case letter. |
| Text.TrimKeepsNoUpper | src/components/ProductGrid.tsx:8 | `trim` of a string with no upper-case letter has none either. |
| Text.TrimLowerCommute | src/components/ProductGrid.tsx:8 | Lower-casing then trimming, as the grid does, equals trimming then lower-casing. |
| Text.IncludesIff | src/components/ProductGrid.tsx:13-15 | `includes` holds exactly when the query occurs at some position of the string. |
| SearchParams.Get | src/components/ProductGrid.tsx:8-9 | `get` is absent exactly when no pair has the name. Otherwise its value is that of the first pair with the name: no earlier pair has it. |
| SearchParams.Delete | src/components/SideBar.tsx:92-97 | After `delete` no pair has the name, and the list is no longer. |
| SearchParams.DeleteMembers | src/components/SideBar.tsx:92-97 | `delete` keeps exactly the pairs whose name differs. |
| SearchParams.Set | src/components/SideBar.tsx:103-107 | After `set`, `get` returns the new value, exactly one pair has the name, and with that name removed the list is the old list with that name removed. |
| SearchParams.SetPosition | src/components/SideBar.tsx:103-107 | `set` puts the new pair where the first pair with the name was, leaving every earlier pair as it was; with no such pair it appends the new pair. |
| SearchParams.SetKeepsOthers | src/components/SideBar.tsx:103-107 | `set` leaves `get` of every other name unchanged, and the pairs of other names unchanged and in order. |
| SearchParams.DeleteKeepsOthers | src/components/SideBar.tsx:92-97 | `delete` leaves `get` of every other name unchanged. |
| SearchParams.DeleteAbsent | src/components/SideBar.tsx:92-97 | Deleting a name that is not there changes nothing. |
| ProductGrid.NormalizeQuery | src/components/ProductGrid.tsx:8 | The normalised query is never longer than the raw one. It is empty exactly when the raw `q` is missing or all whitespace. It holds no upper-case letter, and it neither starts nor ends with whitespace. |
| ProductGrid.NormalizeShape | src/components/ProductGrid.tsx:8 | The query is the slice of the lower-cased `q` that starts after its leading whitespace, with only whitespace cut from either side. |
| ProductGrid.QueryIgnoresCase | src/components/ProductGrid.tsx:8 | Lower-casing `q` first changes neither the query nor the products shown. |
| ProductGrid.Filter | src/components/ProductGrid.tsx:10-18 | A product is in the result exactly when it is in the catalogue and matches both the query and the category. |
| ProductGrid.FilterAppend | src/components/ProductGrid.tsx:10 | Filtering a concatenation filters each part, so catalogue order is kept. |
| ProductGrid.FilterIsSubsequence | src/components/ProductGrid.tsx:10-18 | The result is an order-preserving subsequence of the catalogue. |
| ProductGrid.FilterAll | src/components/ProductGrid.tsx:11-16 | An empty query and a missing or empty category keep the whole catalogue. |
| ProductGrid.BlankSearchShowsAll | src/components/ProductGrid.tsx:8-18 | A missing or whitespace-only `q` with no or empty `cat` shows every product, in order. |
| ProductGrid.CategoryIsExact | src/components/ProductGrid.tsx:16 | With a category, every shown product's category equals it exactly, case-sensitively. |
| ProductGrid.QueryMatchIsSubstring | src/components/ProductGrid.tsx:11-15 | With a non-empty query, every shown product has it as a substring of its lower-cased name, description or some tag. Products matching none are left out. |
| ProductGrid.CategoryNarrows | src/components/ProductGrid.tsx:17 | The result is the query-only result filtered by category, so adding a category never enlarges it. |
| ProductCard.Badge | src/components/ProductCard.tsx:28-35 | A new product always gets "Nuevo". No badge is ever an empty label. |
| ProductCard.BadgeWhenNotNew | src/components/ProductCard.tsx:30-35 | For a product that is not new, `limited` gives "Limitado" and `coming-soon` gives "Próximamente". `in-stock` gives no badge. |
| ProductCard.PriceArea | src/components/ProductCard.tsx:45-60 | Prices are shown exactly when a BTC or ETH price is positive, and they are the product's own prices. |
| ProductCard.NoteWhenNoPrices | src/components/ProductCard.tsx:57 | Without prices, the note is "Solo premium" for `limited` and "Próximamente" for everything else. |
| ProductCard.QtyBadge | src/components/ProductCard.tsx:145-149 | The badge shows exactly when the cart holds a positive quantity of the product, and shows that quantity. |
| ProductCard.AddClicked | src/components/ProductCard.tsx:119 | "Añadir" adds exactly one unit of this product and changes no other product. |
| ProductCard.HeartClicked | src/components/ProductCard.tsx:86 | The heart flips this product's favourite status and no other product's. |
| ProductCard.AddShowsBadge | src/components/ProductCard.tsx:145-149 | After "Añadir", the card's badge shows the old quantity plus one, and the cart keeps positive quantities. |
| ProductCard.AddRaisesCount | src/components/ProductCard.tsx:119 | "Añadir" raises the cart count by one. |
| ProductCard.HeartTwice | src/components/ProductCard.tsx:86 | Two heart clicks restore the favourites. |
| JsNumber.Add | src/components/BannerRotator.tsx:86 | Adding an integer to NaN gives NaN. Otherwise the result is the sum. |
| JsNumber.TruncRem | src/components/BannerRotator.tsx:86 | The remainder takes the dividend's sign and is smaller than the divisor in magnitude, and it differs from the dividend by a multiple of the divisor; together these pin JavaScript's `a - n * trunc(a / n)`. For a non-negative dividend and positive divisor it is the ordinary remainder. |
| JsNumber.TruncRemSigns | src/components/BannerRotator.tsx:86 | `-7 % 3` is -1, `7 % -3` is 1 and `-7 % -3` is -1, unlike a Euclidean remainder. |
| JsNumber.Rem | src/components/BannerRotator.tsx:86 | `a % n` is NaN exactly when `a` is NaN or `n` is 0. |
| Carousel.Next | src/components/BannerRotator.tsx:80 | The tick `(i + 1) % n` keeps an in-range index in `[0, n)` and is NaN for an empty list. |
| Carousel.Go | src/components/BannerRotator.tsx:86 | `go(dir)` keeps an in-range index in `[0, n)` and is NaN for an empty list. |
| Carousel.NextIsForwardStep | src/components/BannerRotator.tsx:80-86 | The autoplay tick and `go(1)` agree on every in-range index. |
| Carousel.GoValue | src/components/BannerRotator.tsx:86 | In range, `go(dir)` is `(i + dir + n) % n`. |
| Carousel.ForwardValue | src/components/BannerRotator.tsx:86 | A forward step moves to the next index, and from the last index wraps to 0. |
| Carousel.BackwardValue | src/components/BannerRotator.tsx:86 | A backward step moves to the previous index, and from 0 wraps to the last index. |
| Carousel.BackUndoesForward | src/components/BannerRotator.tsx:86 | `go(-1)` after `go(1)` restores the index, and so does `go(1)` after `go(-1)`. |
| Carousel.NextNFormula | src/components/BannerRotator.tsx:80 | `k` ticks from `i` land on `(i + k) % n`. |
| Carousel.NextNCycle | src/components/BannerRotator.tsx:80 | `n` ticks return to the starting index. |
| Carousel.EmptyListGivesNaN | src/components/BannerRotator.tsx:80-86 | With no items every step gives NaN. From NaN, a tick or `go` of any list length gives NaN, and so do any number of ticks. |
| Carousel.NaNStaysNaN | src/components/BannerRotator.tsx:80 | Any number of ticks from NaN gives NaN. |
| BannerRotator.Data | src/components/BannerRotator.tsx:19-65 | A null `items` falls back to the six default items. An explicit list, even an empty one, is kept. |
| BannerRotator.Step | src/components/BannerRotator.tsx:76-157 | A dot click sets the index to exactly that dot and changes nothing else. A key other than the arrows and Space changes nothing. A tick moves nothing while autoplay is off. Hover and focus set `hovering`, leave and blur clear it, and the pause button negates `manualPause`. |
| BannerRotator.StepKeepsIndexInRange | src/components/BannerRotator.tsx:76-126 | Every event the rendered carousel can deliver keeps the index on an item. |
| BannerRotator.RunKeepsIndexInRange | src/components/BannerRotator.tsx:66-157 | From the first render, any sequence of deliverable events keeps the index on an item. |
| BannerRotator.ArrowKeysAreButtons | src/components/BannerRotator.tsx:100-104 | ArrowRight is the next button, ArrowLeft the previous button, and Space the pause button. |
| BannerRotator.PauseTwice | src/components/BannerRotator.tsx:100-104 | Two presses of Space, or of the pause button, restore the carousel. |
| BannerRotator.TickIsNext | src/components/BannerRotator.tsx:80-86 | While autoplay runs, a tick is a press of "next". |
| BannerRotator.PrevUndoesNext | src/components/BannerRotator.tsx:86 | "Previous" after "next" restores the carousel. |
| BannerRotator.PressNextIsTicks | src/components/BannerRotator.tsx:86 | `k` presses of "next" move the index to `(i + k) % n` and change nothing else. |
| BannerRotator.NextButtonCycle | src/components/BannerRotator.tsx:157 | `n` presses of "next" return to the starting item. |
| BannerRotator.NoAutoplayWhenHeld | src/components/BannerRotator.tsx:76-78 | With reduced motion, a manual pause, hovering, or at most one item, a tick changes nothing. |
| BannerSlider.Items | src/components/BannerSlider.tsx:7-34 | A null `messages` falls back to the three default messages. A given list is kept. |
| BannerSlider.Step | src/components/BannerSlider.tsx:39-67 | While paused a tick changes nothing. Mouse-enter and focus set `paused`, and mouse-leave and blur clear it. An in-range index stays in range. |
| BannerSlider.PauseIsAssignment | src/components/BannerSlider.tsx:51-67 | Pausing assigns rather than toggles: entering twice is entering once, and leave or blur always unpauses. |
| BannerSlider.PausedTicksHold | src/components/BannerSlider.tsx:40 | While paused, no number of ticks moves the index. |
| BannerSlider.TicksCycle | src/components/BannerSlider.tsx:42 | Unpaused, `k` ticks land on `(i + k) % n`, and `n` ticks return to the start. |
| SideBar.IsActive | src/components/SideBar.tsx:80-84 | A link is active on its own path. An active link's href is a prefix of the path. The root link is active only on `/`. |
| SideBar.ComputedLinks | src/components/SideBar.tsx:76-87 | Each link keeps its position, label and href, and gains only `active`, which follows the active rule. |
| SideBar.RootActiveOnlyAtRoot | src/components/SideBar.tsx:80-84 | The root link `/` is active only on the path `/`. |
| SideBar.NonRootActiveOnPrefix | src/components/SideBar.tsx:80-84 | Any other link is active exactly on the paths that start with its href. |
| SideBar.PrefixIsNotSegmentAware | src/components/SideBar.tsx:83-84 | The prefix test is on characters, so `/shop` is active on `/shopping`. |
| SideBar.WithCategory | src/components/SideBar.tsx:103-107 | A non-null, non-empty category is set as `cat`, and anything else deletes `cat`. No other parameter changes. |
| SideBar.WithQuery | src/components/SideBar.tsx:92-97 | A non-empty query is set as `q`, and an empty one deletes `q`. No other parameter changes. |
| SideBar.Init | src/components/SideBar.tsx:17-23 | The panel starts closed and unmounted, and the search box starts with `q` (or empty). |
| SideBar.Step | src/components/SideBar.tsx:28-109 | Escape leaves the panel open only if it was open on desktop. Choosing a category closes the panel, rewrites `cat` and changes nothing else. The sync writes the typed query into `q`. A viewport change only sets `isDesktop`, typing only sets the query, and mounting only sets `mounted`. |
| SideBar.AriaHidden | src/components/SideBar.tsx:172 | The panel is hidden exactly when it is not mounted, or it is closed on mobile. |
| SideBar.TabIndex | src/components/SideBar.tsx:173 | `tabIndex` is always 0 or -1. |
| SideBar.TabIndexFollowsAriaHidden | src/components/SideBar.tsx:172-173 | `tabIndex` is 0 exactly when the panel is not `aria-hidden`, and -1 exactly when it is. |
| SideBar.AriaHiddenCases | src/components/SideBar.tsx:172 | Before mount the panel is hidden. After mount it is visible on desktop and hidden on mobile exactly when closed. |
| SideBar.EscapeOnlyClosesOpenMobile | src/components/SideBar.tsx:54-66 | Escape closes an open panel on mobile and otherwise changes nothing. |
| SideBar.MenuButtonOpens | src/components/SideBar.tsx:145 | The menu button opens the panel and changes nothing else. |
| SideBar.LinkClickCloses | src/components/SideBar.tsx:263 | Following a link closes the panel and changes nothing else. |
| SideBar.CloseButtonCloses | src/components/SideBar.tsx:478 | The close button closes the panel and changes nothing else. |
| SideBar.OverlayCloses | src/components/SideBar.tsx:510 | A click on the overlay closes the panel and changes nothing else. |
| SideBar.CategoryKeepsQuery | src/components/SideBar.tsx:103-107 | Choosing a category leaves `q` as it was. |
| SideBar.QuerySyncKeepsCategory | src/components/SideBar.tsx:90-97 | The query sync leaves `cat` as it was. |
| SideBar.CategoryButtonFiltersGrid | src/components/SideBar.tsx:301-325 | After a category button, the catalogue shows only products of that category. |
| SideBar.ClearFilterShowsAllCategories | src/components/SideBar.tsx:333 | After the clear-filter button, the category no longer restricts the catalogue. |
| SideBar.TypedQueryReachesGrid | src/components/SideBar.tsx:90-101 | Once the sync fires after typing, `q` holds the typed text (or is gone if it is empty) and the catalogue filters by it under the unchanged `cat`. |
| SideBar.SameTextSameQuery | src/components/ProductGrid.tsx:8 | The grid's query depends only on the text of `q`, and a missing `q` reads as empty. |

## Left out

- Browser storage I/O and the JSON text. The slot is a value, and what `JSON.parse` makes of the text is a datatype. The `typeof window` guard for server rendering (ShopContext.tsx:38-40) is not modelled.
- Persistence.LoadState: a cart that is an object but whose values are not integers (strings, fractions, `null`) is treated as an untracked cart. So is any other truthy non-object.
- Persistence.FavoritesOf: an array holding non-string entries (numbers, objects) is not modelled. Only arrays of ids and strings are.
- ShopStore.ApplyCart: an untracked cart stays untracked under every operation. This is a modelling choice the code does not follow: the spreads at ShopContext.tsx:84 and :89 turn `true`, a number or an array into a plain object, so `{"cart":true}` followed by `addToCart("a", 1)` gives `{a: 1}`, which saves and reloads as a real cart.
- Cart.GetQty: ids are assumed not to name members of `Object.prototype`. For such ids `cart[id] || 0` reads the inherited value, so `getQty("constructor")` is the `Object` function and `addToCart("toString", 1)` stores a string.
- Cart.AddToCart: quantities are unbounded integers. JavaScript number precision above 2^53 and the NaN that a non-numeric stored quantity would produce are not modelled.
- ShopStore.Hydrate: requires that the store is not yet hydrated. The effect has no dependencies and runs once per mount.
- React scheduling: batching of `setState`, effect ordering beyond "update, then persist", and memoisation. `useShop` throwing outside the provider is a wiring check and is not modelled.
- BannerSlider.Items: an empty `messages` list is kept, and the model ticks its index to NaN. The component does not get that far: `items[idx]` is undefined (BannerSlider.tsx:54), so reading `current.accent` (BannerSlider.tsx:69) throws on the first render.
- Timers: `setInterval`, `setTimeout`, the 250 ms debounce of the query sync, and the interval lengths. Each firing is an event.
- Text.LowerChar: only ASCII and Latin-1 upper-case letters are mapped; every other character is kept as it is.
- Text.Lower: `toLowerCase` is modelled for ASCII and Latin-1 letters only. Full Unicode case mapping, including mappings that change a string's length, is not.
- SideBar.Step: the query sync rewrites the current parameters, so it assumes every earlier navigation has landed. The debounced callback uses the `searchParams` it captured, and `router.replace` is asynchronous, so a sync firing between a category click and the navigation landing could write back a stale `cat`; that window is not modelled.
- BannerRotator.Data: item ids, typed `string | number` in the component, are strings; they serve only as React keys.
- URL encoding and `router.replace`: the parameters are an ordered list of name/value pairs.
- DOM, focus and layout: the focus trap, moving focus on open and close, body-scroll locking, the `matchMedia` listener (only its result is an input), the categories disclosure, and the "panic" redirect. Also left out are track width and offset strings, `toFixed(4)` price formatting, and the `prefers-reduced-motion` query (its result is an input).
- Presentation-only pages and components, the theme hook and toggle (a constant dark theme), and the analytics wrappers.

=== FILE: banner_rotator.dfy ===
/**
 * The information carousel of src/components/BannerRotator.tsx: an index into the
 * items, a manual pause, a hover/focus pause, and autoplay that advances the index
 * while nothing holds it.
 *
 * Timers are not modelled: a `TimerTick` event stands for one firing of the interval,
 * and fires only while the autoplay effect has an interval installed.
 */
module BannerRotator {
  import opened Wrappers
  import opened JsNumber
  import opened Carousel

  datatype Icon = Shipping | Discount | Payment | Support | Security | Refund

  /**
   * An item of the carousel. The component types `id` as `string | number`; it is narrowed
   * to a string here, since the id only serves as a React key.
   */
  datatype InfoItem = InfoItem(id: string, icon: Icon, title: string, description: string, accent: Option<string>)

  /** The six items shown when the component receives none. */
  const DefaultItems: seq<InfoItem> := [
    InfoItem("shipping", Shipping, "Envío 24–72h, empaque discreto",
      "Tracking privado. Envío gratis desde 0.02 ETH o 0.001 BTC.", Some("#22d3ee")),
    InfoItem("discount", Discount, "Ofertas y combos semanales",
      "-10% primer pedido. Paquetes combo con hasta -20%.", Some("#a78bfa")),
    InfoItem("payment", Payment, "Pagos BTC/ETH con comisión baja",
      "Confirmación típica ~10 min. Notificación segura.", Some("#34d399")),
    InfoItem("support", Support, "Soporte 24/7 con respuesta < 2h",
      "Canal cifrado. Seguimiento hasta entrega confirmada.", Some("#f472b6")),
    InfoItem("security", Security, "Privacidad y seguridad por defecto",
      "Datos mínimos, cifrado extremo a extremo y protección de cuenta.", Some("#60a5fa")),
    InfoItem("refund", Refund, "Devoluciones fáciles (7 días)",
      "Incidencias logísticas cubiertas con reemplazo o crédito.", Some("#f59e0b"))
  ]

  /** `items ?? DEFAULT_ITEMS`: an empty list given explicitly is kept. */
  function Data(items: Option<seq<InfoItem>>): (r: seq<InfoItem>)
    ensures items.None? ==> r == DefaultItems && |r| == 6
    ensures items.Some? ==> r == items.value
  {
    items.GetOr(DefaultItems)
  }

  datatype Rotator = Rotator(index: Num, manualPause: bool, hovering: bool)

  /** The component as first rendered. */
  const Initial := Rotator(Int(0), false, false)

  datatype Event =
    | Key(key: string)   // a key pressed while the carousel has focus
    | PrevButton
    | NextButton
    | PauseButton
    | DotClick(i: int)   // the dot of item `i`
    | PointerEnter
    | PointerLeave
    | FocusIn
    | FocusOut
    | TimerTick          // one firing of the autoplay interval

  /** The autoplay effect installs an interval only when nothing holds the carousel and there is something to rotate. */
  predicate AutoplayOn(st: Rotator, n: int, prefersReduced: bool) {
    !prefersReduced && !(st.manualPause || st.hovering) && n > 1
  }

  /** The carousel after one event, with `n` items. */
  function Step(st: Rotator, e: Event, n: int, prefersReduced: bool): (r: Rotator)
    ensures e.DotClick? ==> r == st.(index := Int(e.i))
    ensures e.Key? && e.key != "ArrowRight" && e.key != "ArrowLeft" && e.key != " " ==> r == st
    ensures e.TimerTick? && !AutoplayOn(st, n, prefersReduced) ==> r == st
    ensures (e.PointerEnter? || e.FocusIn?) ==> r == st.(hovering := true)
    ensures (e.PointerLeave? || e.FocusOut?) ==> r == st.(hovering := false)
    ensures e.PauseButton? ==> r == st.(manualPause := !st.manualPause)
  {
    match e
    case Key(k) =>
      if k == "ArrowRight" then st.(index := Go(st.index, 1, n))
      else if k == "ArrowLeft" then st.(index := Go(st.index, -1, n))
      else if k == " " then st.(manualPause := !st.manualPause)
      else st
    case PrevButton => st.(index := Go(st.index, -1, n))
    case NextButton => st.(index := Go(st.index, 1, n))
    case PauseButton => st.(manualPause := !st.manualPause)
    case DotClick(i) => st.(index := Int(i))
    case PointerEnter => st.(hovering := true)
    case PointerLeave => st.(hovering := false)
    case FocusIn => st.(hovering := true)
    case FocusOut => st.(hovering := false)
    case TimerTick => if AutoplayOn(st, n, prefersReduced) then st.(index := Next(st.index, n)) else st
  }

  /** An event the rendered carousel can deliver: dots exist only for the items there are. */
  predicate Deliverable(e: Event, n: int) {
    e.DotClick? ==> 0 <= e.i < n
  }

  /** Steps from the first render. */
  function Run(events: seq<Event>, n: int, prefersReduced: bool): Rotator
    decreases |events|
  {
    if |events| == 0 then Initial
    else Step(Run(events[..|events| - 1], n, prefersReduced), events[|events| - 1], n, prefersReduced)
  }

  // ---------------------------------------------------------------------------
  // Properties
  // ---------------------------------------------------------------------------

  /** Every deliverable event keeps the index on an item. */
  lemma StepKeepsIndexInRange(st: Rotator, e: Event, n: int, prefersReduced: bool)
    requires n >= 1 && InRange(st.index, n)
    requires Deliverable(e, n)
    ensures InRange(Step(st, e, n, prefersReduced).index, n)
  {
  }

  /** Whatever happens, the index stays on an item of a non-empty carousel. */
  lemma {:induction false} RunKeepsIndexInRange(events: seq<Event>, n: int, prefersReduced: bool)
    requires n >= 1
    requires forall k :: 0 <= k < |events| ==> Deliverable(events[k], n)
    ensures InRange(Run(events, n, prefersReduced).index, n)
    decreases |events|
  {
    if |events| > 0 {
      var prefix := events[..|events| - 1];
      assert forall k :: 0 <= k < |prefix| ==> prefix[k] == events[k];
      RunKeepsIndexInRange(prefix, n, prefersReduced);
      StepKeepsIndexInRange(Run(prefix, n, prefersReduced), events[|events| - 1], n, prefersReduced);
    }
  }

  /** The arrow keys are the arrow buttons. */
  lemma ArrowKeysAreButtons(st: Rotator, n: int, prefersReduced: bool)
    ensures Step(st, Key("ArrowRight"), n, prefersReduced) == Step(st, NextButton, n, prefersReduced)
    ensures Step(st, Key("ArrowLeft"), n, prefersReduced) == Step(st, PrevButton, n, prefersReduced)
    ensures Step(st, Key(" "), n, prefersReduced) == Step(st, PauseButton, n, prefersReduced)
  {
  }

  /** Two presses of Space, or of the pause button, leave the carousel as it was. */
  lemma PauseTwice(st: Rotator, n: int, prefersReduced: bool)
    ensures Step(Step(st, Key(" "), n, prefersReduced), Key(" "), n, prefersReduced) == st
    ensures Step(Step(st, PauseButton, n, prefersReduced), PauseButton, n, prefersReduced) == st
  {
  }

  /** The autoplay tick is a forward step. */
  lemma TickIsNext(st: Rotator, n: int, prefersReduced: bool)
    requires InRange(st.index, n)
    requires AutoplayOn(st, n, prefersReduced)
    ensures Step(st, TimerTick, n, prefersReduced) == Step(st, NextButton, n, prefersReduced)
  {
    NextIsForwardStep(st.index, n);
  }

  /** "Previous" undoes "next". */
  lemma PrevUndoesNext(st: Rotator, n: int, prefersReduced: bool)
    requires n >= 1 && InRange(st.index, n)
    ensures Step(Step(st, NextButton, n, prefersReduced), PrevButton, n, prefersReduced) == st
  {
    BackUndoesForward(st.index, n);
  }

  /** `n` presses of "next" bring the carousel back to the item it started on. */
  lemma NextButtonCycle(st: Rotator, n: int, prefersReduced: bool)
    requires n >= 1 && InRange(st.index, n)
    ensures PressNext(st, n, prefersReduced, n) == st
  {
    PressNextIsTicks(st, n, prefersReduced, n);
    NextNCycle(st.index, n);
  }

  /** `k` presses of "next". */
  function PressNext(st: Rotator, n: int, prefersReduced: bool, k: nat): Rotator
    decreases k
  {
    if k == 0 then st else Step(PressNext(st, n, prefersReduced, k - 1), NextButton, n, prefersReduced)
  }

  lemma {:induction false} PressNextIsTicks(st: Rotator, n: int, prefersReduced: bool, k: nat)
    requires n >= 1 && InRange(st.index, n)
    ensures PressNext(st, n, prefersReduced, k) == st.(index := NextN(st.index, n, k))
    decreases k
  {
    if k > 0 {
      PressNextIsTicks(st, n, prefersReduced, k - 1);
      NextNFormula(st.index, n, k - 1);
      var prev := NextN(st.index, n, k - 1);
      NextIsForwardStep(prev, n);
    }
  }

  /** A single item, a reduced-motion preference, or any pause keeps the index still. */
  lemma NoAutoplayWhenHeld(st: Rotator, n: int, prefersReduced: bool)
    requires prefersReduced || st.manualPause || st.hovering || n <= 1
    ensures Step(st, TimerTick, n, prefersReduced) == st
  {
  }
}

=== FILE: banner_slider.dfy ===
/**
 * The alert ticker of src/components/BannerSlider.tsx: an index into the messages that
 * the interval advances unless the ticker is paused by the pointer or by focus.
 *
 * Timers are not modelled: a `Tick` event stands for one firing of the interval, and
 * fires only while the effect has one installed, that is while not paused.
 */
module BannerSlider {
  import opened Wrappers
  import opened JsNumber
  import opened Carousel

  datatype Message = Message(id: int, kind: string, prefix: string, title: string, detail: string, accent: string)

  /** The three messages shown when the component receives none. */
  const DefaultMessages: seq<Message> := [
    Message(1, "stock", "[STOCK ALERT]", "Producto “X” agotándose rápido.",
      "Unidades restantes: 07", "#00FF88"),
    Message(2, "security", "[SECURE NODE UPDATE]", "Nueva ruta de encriptación habilitada.",
      "Latencia reducida en un 30%.", "#00E5FF"),
    Message(3, "supplier", "[NEW SUPPLIER]", "Proveedor “Europa Central” verificado.",
      "Productos con 15% OFF por tiempo limitado.", "#FF00AA")
  ]

  /** `messages ?? defaultMessages`. */
  function Items(messages: Option<seq<Message>>): (r: seq<Message>)
    ensures messages.None? ==> r == DefaultMessages && |r| == 3
    ensures messages.Some? ==> r == messages.value
  {
    messages.GetOr(DefaultMessages)
  }

  datatype Slider = Slider(idx: Num, paused: bool)

  const Initial := Slider(Int(0), false)

  datatype Event = MouseEnter | MouseLeave | Focus | Blur | Tick

  /** The ticker after one event, with `n` messages. */
  function Step(st: Slider, e: Event, n: int): (r: Slider)
    ensures e.Tick? && st.paused ==> r == st
    ensures (e.MouseEnter? || e.Focus?) ==> r == st.(paused := true)
    ensures (e.MouseLeave? || e.Blur?) ==> r == st.(paused := false)
    ensures n >= 1 && InRange(st.idx, n) ==> InRange(r.idx, n)
  {
    match e
    case MouseEnter => st.(paused := true)
    case MouseLeave => st.(paused := false)
    case Focus => st.(paused := true)
    case Blur => st.(paused := false)
    case Tick => if st.paused then st else st.(idx := Next(st.idx, n))
  }

  /** `k` firings of the interval. */
  function Ticks(st: Slider, n: int, k: nat): Slider
    decreases k
  {
    if k == 0 then st else Step(Ticks(st, n, k - 1), Tick, n)
  }

  // ---------------------------------------------------------------------------
  // Properties
  // ---------------------------------------------------------------------------

  /** Pausing is an assignment, not a toggle: entering twice is entering once. */
  lemma PauseIsAssignment(st: Slider, n: int)
    ensures Step(Step(st, MouseEnter, n), MouseEnter, n) == Step(st, MouseEnter, n)
    ensures Step(Step(st, Focus, n), MouseEnter, n).paused
    ensures !Step(Step(st, MouseEnter, n), MouseLeave, n).paused
    ensures !Step(Step(st, Focus, n), Blur, n).paused
  {
  }

  /** While paused no tick moves the index. */
  lemma {:induction false} PausedTicksHold(st: Slider, n: int, k: nat)
    requires st.paused
    ensures Ticks(st, n, k) == st
    decreases k
  {
    if k > 0 {
      PausedTicksHold(st, n, k - 1);
    }
  }

  /** Unpaused, `k` ticks land on `(idx + k) % n`, so `n` ticks return to the start. */
  lemma {:induction false} TicksCycle(st: Slider, n: int, k: nat)
    requires !st.paused
    requires n >= 1 && InRange(st.idx, n)
    ensures Ticks(st, n, k) == st.(idx := NextN(st.idx, n, k))
    ensures Ticks(st, n, k).idx == Int((st.idx.v + k) % n)
    ensures k == n ==> Ticks(st, n, k) == st
    decreases k
  {
    NextNFormula(st.idx, n, k);
    if k > 0 {
      TicksCycle(st, n, k - 1);
    }
    if k == n {
      NextNCycle(st.idx, n);
    }
  }
}

=== FILE: carousel.dfy ===
/**
 * The index arithmetic the two carousels share: `(i + 1) % n` for the autoplay tick and
 * `(i + dir + n) % n` for a step in either direction, on JavaScript numbers.
 */
module Carousel {
  import opened JsNumber

  /** A step direction: `-1 | 1`. */
  type Dir = d: int | d == -1 || d == 1 witness 1

  /** The autoplay tick `(i + 1) % n`. */
  function Next(i: Num, n: int): (r: Num)
    ensures n >= 1 && InRange(i, n) ==> InRange(r, n)
    ensures n == 0 ==> r == NaN
  {
    var r := Rem(Add(i, 1), n);
    assert n >= 1 && InRange(i, n) ==> r == Int((i.v + 1) % n);
    r
  }

  /** `go(dir)`: `(i + dir + n) % n`. */
  function Go(i: Num, dir: Dir, n: int): (r: Num)
    ensures n >= 1 && InRange(i, n) ==> InRange(r, n)
    ensures n == 0 ==> r == NaN
  {
    var r := Rem(Add(Add(i, dir), n), n);
    assert n >= 1 && InRange(i, n) ==> r == Int((i.v + dir + n) % n);
    r
  }

  /** `k` ticks in a row. */
  function NextN(i: Num, n: int, k: nat): Num
    decreases k
  {
    if k == 0 then i else Next(NextN(i, n, k - 1), n)
  }

  /** The remainder of a value in `[0, 3n)`. */
  lemma ModSmall(a: int, n: int)
    requires n >= 1 && 0 <= a < 3 * n
    ensures a < n ==> a % n == a
    ensures n <= a < 2 * n ==> a % n == a - n
    ensures 2 * n <= a ==> a % n == a - 2 * n
  {
    if a < n {
      ModUnique(a, n, 0);
    } else if a < 2 * n {
      ModUnique(a, n, 1);
    } else {
      ModUnique(a, n, 2);
    }
  }

  /** Adding one before or after reducing modulo `n` gives the same remainder. */
  lemma ModSucc(a: int, n: int)
    requires n >= 1
    ensures (a % n + 1) % n == (a + 1) % n
  {
    var q := a / n;
    var r := a % n;
    assert a == q * n + r;
    if r + 1 < n {
      ModUnique(a + 1, n, q);
      ModUnique(r + 1, n, 0);
    } else {
      assert a + 1 == (q + 1) * n;
      ModUnique(a + 1, n, q + 1);
      ModUnique(r + 1, n, 1);
    }
  }

  // ---------------------------------------------------------------------------
  // Properties
  // ---------------------------------------------------------------------------

  /** For an index in range, the tick and a forward step agree. */
  lemma NextIsForwardStep(i: Num, n: int)
    requires n >= 1 && InRange(i, n)
    ensures Next(i, n) == Go(i, 1, n)
  {
    ModSmall(i.v + 1, n);
    ModSmall(i.v + 1 + n, n);
  }

  /** Inside the range, a step is `(i + dir + n) % n` on the index value. */
  lemma GoValue(i: Num, dir: Dir, n: int)
    requires n >= 1 && InRange(i, n)
    ensures Go(i, dir, n) == Int((i.v + dir + n) % n)
  {
  }

  /** The forward step wraps from the last index to 0. */
  lemma ForwardValue(x: int, n: int)
    requires n >= 1 && 0 <= x < n
    ensures (x + 1 + n) % n == (if x + 1 < n then x + 1 else 0)
  {
    if x + 1 < n {
      ModUnique(x + 1 + n, n, 1);
    } else {
      ModUnique(x + 1 + n, n, 2);
    }
  }

  /** The backward step wraps from 0 to the last index. */
  lemma BackwardValue(x: int, n: int)
    requires n >= 1 && 0 <= x < n
    ensures (x - 1 + n) % n == (if x >= 1 then x - 1 else n - 1)
  {
    if x >= 1 {
      ModUnique(x - 1 + n, n, 1);
    } else {
      ModUnique(x - 1 + n, n, 0);
    }
  }

  /** A step back undoes a step forward, and the reverse. */
  lemma BackUndoesForward(i: Num, n: int)
    requires n >= 1 && InRange(i, n)
    ensures Go(Go(i, 1, n), -1, n) == i
    ensures Go(Go(i, -1, n), 1, n) == i
  {
    ForwardThenBack(i, n);
    BackThenForward(i, n);
  }

  lemma ForwardThenBack(i: Num, n: int)
    requires n >= 1 && InRange(i, n)
    ensures Go(Go(i, 1, n), -1, n) == i
  {
    var x := i.v;
    var y := if x + 1 < n then x + 1 else 0;
    GoValue(i, 1, n);
    ForwardValue(x, n);
    assert Go(i, 1, n) == Int(y);
    GoValue(Int(y), -1, n);
    BackwardValue(y, n);
  }

  lemma BackThenForward(i: Num, n: int)
    requires n >= 1 && InRange(i, n)
    ensures Go(Go(i, -1, n), 1, n) == i
  {
    var x := i.v;
    var y := if x >= 1 then x - 1 else n - 1;
    GoValue(i, -1, n);
    BackwardValue(x, n);
    assert Go(i, -1, n) == Int(y);
    GoValue(Int(y), 1, n);
    ForwardValue(y, n);
  }

  /** `k` ticks from `i` land on `(i + k) % n`. */
  lemma {:induction false} NextNFormula(i: Num, n: int, k: nat)
    requires n >= 1 && InRange(i, n)
    ensures NextN(i, n, k) == Int((i.v + k) % n)
    decreases k
  {
    if k == 0 {
      ModSmall(i.v, n);
    } else {
      NextNFormula(i, n, k - 1);
      ModSucc(i.v + k - 1, n);
      assert (i.v + k - 1) % n >= 0;
    }
  }

  /** `n` ticks bring the index back to where it started. */
  lemma NextNCycle(i: Num, n: int)
    requires n >= 1 && InRange(i, n)
    ensures NextN(i, n, n) == i
  {
    NextNFormula(i, n, n);
    ModSmall(i.v + n, n);
  }

  /** With an empty list every step yields NaN, and NaN stays NaN. */
  lemma EmptyListGivesNaN(i: Num, dir: Dir, n: int, k: nat)
    ensures Next(i, 0) == NaN && Go(i, dir, 0) == NaN
    ensures Next(NaN, n) == NaN && Go(NaN, dir, n) == NaN
    ensures NextN(NaN, n, k) == NaN
  {
    NaNStaysNaN(n, k);
  }

  /** Once NaN, any number of ticks leaves the index NaN. */
  lemma {:induction false} NaNStaysNaN(n: int, k: nat)
    ensures NextN(NaN, n, k) == NaN
  {
    if k > 0 {
      NaNStaysNaN(n, k - 1);
    }
  }
}

=== FILE: cart.dfy ===
/**
 * The cart and favourites operations of the shop store (`ShopProvider` in
 * src/context/ShopContext.tsx), as pure functions on the two collections.
 *
 * A cart maps a product id to a quantity; an id that is absent has quantity 0.
 * The favourites are a set of product ids.
 */
module Cart {

  type Cart = map<string, int>
  type Favorites = set<string>

  /** The invariant the store keeps: every stored quantity is positive. */
  predicate Positive(c: Cart) {
    forall id :: id in c ==> c[id] > 0
  }

  /** `getQty`: the stored quantity, 0 for an id never stored (`cart[id] || 0`). */
  function GetQty(c: Cart, id: string): (q: int)
    ensures id in c ==> q == c[id]
    ensures id !in c ==> q == 0
  {
    if id in c then c[id] else 0
  }

  /** `addToCart(id, qty)`: the quantity of `id` grows by `qty`, an absent id counting as 0. */
  function AddToCart(c: Cart, id: string, qty: int): (r: Cart)
    ensures id in r && r[id] == GetQty(c, id) + qty
    ensures r.Keys == c.Keys + {id}
    ensures forall other :: other != id ==> GetQty(r, other) == GetQty(c, other)
  {
    c[id := GetQty(c, id) + qty]
  }

  /**
   * `removeFromCart(id, qty)`: the quantity of `id` drops by `qty`; when the result is
   * not positive the entry is deleted rather than stored.
   */
  function RemoveFromCart(c: Cart, id: string, qty: int): (r: Cart)
    ensures GetQty(c, id) - qty > 0 ==> id in r && r[id] == GetQty(c, id) - qty
    ensures GetQty(c, id) - qty <= 0 ==> id !in r
    ensures r.Keys <= c.Keys + {id}
    ensures forall other :: other != id ==> GetQty(r, other) == GetQty(c, other)
    ensures r - {id} == c - {id}
  {
    var next := GetQty(c, id) - qty;
    if next > 0 then c[id := next] else c - {id}
  }

  /** `toggleFavorite(id)`: flips the membership of `id` and of nothing else. */
  function ToggleFavorite(f: Favorites, id: string): (r: Favorites)
    ensures (id in r) <==> (id !in f)
    ensures forall other :: other != id ==> (other in r <==> other in f)
  {
    if id in f then f - {id} else f + {id}
  }

  /** `isFavorite(id)`. */
  predicate IsFavorite(f: Favorites, id: string): (b: bool)
    ensures b <==> id in f
    ensures b ==> FavoritesCount(f) > 0
  {
    id in f
  }

  /** `favoritesCount`: the size of the favourites set. */
  function FavoritesCount(f: Favorites): (n: nat)
    ensures n == 0 <==> f == {}
  {
    |f|
  }

  // ---------------------------------------------------------------------------
  // cartCount: the sum of all quantities
  // ---------------------------------------------------------------------------

  /** Some key of a non-empty cart; a function, so that every use picks the same key. */
  ghost function Pick(c: Cart): (id: string)
    requires c != map[]
    ensures id in c
  {
    var id :| id in c; id
  }

  /** `cartCount`: the sum of all the quantities in the cart. */
  ghost function CartCount(c: Cart): (n: int)
    ensures c == map[] ==> n == 0
    ensures (forall id :: id in c ==> c[id] >= 0) ==> n >= 0
    decreases |c|
  {
    if c == map[] then 0
    else
      var id := Pick(c);
      assert (c - {id}).Keys == c.Keys - {id};
      c[id] + CartCount(c - {id})
  }

  /** The sum does not depend on the order the keys are visited in: any entry can be split off. */
  lemma {:induction false} CartCountSplit(c: Cart, id: string)
    requires id in c
    ensures CartCount(c) == c[id] + CartCount(c - {id})
    decreases |c|
  {
    var k := Pick(c);
    if k != id {
      var rest := c - {k};
      assert rest.Keys == c.Keys - {k};
      CartCountSplit(rest, id);
      var both := rest - {id};
      var restId := c - {id};
      assert restId.Keys == c.Keys - {id};
      CartCountSplit(restId, k);
      assert restId - {k} == both;
    }
  }

  /** `cartCount` after an add: exactly `qty` more. */
  lemma AddToCartCount(c: Cart, id: string, qty: int)
    ensures CartCount(AddToCart(c, id, qty)) == CartCount(c) + qty
  {
    var r := AddToCart(c, id, qty);
    CartCountSplit(r, id);
    assert r - {id} == c - {id};
    if id in c {
      CartCountSplit(c, id);
    } else {
      assert c - {id} == c;
    }
  }

  /**
   * `cartCount` after a remove: it falls by `qty` when the entry survives, and by the
   * whole previous quantity when the entry is deleted.
   */
  lemma RemoveFromCartCount(c: Cart, id: string, qty: int)
    ensures var prev := GetQty(c, id);
      CartCount(RemoveFromCart(c, id, qty)) == CartCount(c) - (if prev - qty > 0 then qty else prev)
  {
    var r := RemoveFromCart(c, id, qty);
    if id in c {
      CartCountSplit(c, id);
    } else {
      assert c - {id} == c;
    }
    if id in r {
      CartCountSplit(r, id);
      assert r - {id} == c - {id};
    } else {
      assert r == c - {id};
    }
  }

  /** With positive quantities the count is at least the number of distinct products. */
  lemma {:induction false} CartCountBound(c: Cart)
    requires Positive(c)
    ensures CartCount(c) >= |c|
    decreases |c|
  {
    if c != map[] {
      var id := Pick(c);
      var rest := c - {id};
      assert rest.Keys == c.Keys - {id};
      CartCountBound(rest);
    }
  }

  // ---------------------------------------------------------------------------
  // Properties relating several operations
  // ---------------------------------------------------------------------------

  /** Adding a positive quantity keeps every stored quantity positive. */
  lemma AddKeepsPositive(c: Cart, id: string, qty: int)
    requires Positive(c)
    requires qty >= 1
    ensures Positive(AddToCart(c, id, qty))
  {
  }

  /** Removing never stores a non-positive quantity, whatever the amount removed. */
  lemma RemoveKeepsPositive(c: Cart, id: string, qty: int)
    requires Positive(c)
    ensures Positive(RemoveFromCart(c, id, qty))
  {
  }

  /** The add has no guard on its amount: adding 0 to an absent id stores a zero quantity. */
  lemma AddZeroBreaksPositive(id: string)
    ensures !Positive(AddToCart(map[], id, 0))
  {
    assert AddToCart(map[], id, 0)[id] == 0;
  }

  /** The quantity after a remove is `max(0, old - qty)`. */
  lemma RemoveQty(c: Cart, id: string, qty: int)
    ensures var prev := GetQty(c, id);
      GetQty(RemoveFromCart(c, id, qty), id) == (if prev - qty > 0 then prev - qty else 0)
  {
  }

  /** Removing a non-negative amount of an absent id leaves the cart as it was. */
  lemma RemoveAbsent(c: Cart, id: string, qty: int)
    requires id !in c
    requires qty >= 0
    ensures RemoveFromCart(c, id, qty) == c
  {
    assert c - {id} == c;
  }

  /** Adding `qty` units and removing them again restores a cart that satisfies the invariant. */
  lemma AddThenRemove(c: Cart, id: string, qty: int)
    requires Positive(c)
    requires qty >= 1
    ensures RemoveFromCart(AddToCart(c, id, qty), id, qty) == c
  {
    var a := AddToCart(c, id, qty);
    if id !in c {
      assert a - {id} == c;
    }
  }

  /**
   * The clamp applies at each removal, not to the running total: removing before
   * adding does not cancel the add, so the quantity is not `max(0, added - removed)`.
   */
  lemma ClampIsPerStep(id: string)
    ensures GetQty(AddToCart(RemoveFromCart(map[], id, 1), id, 1), id) == 1
    ensures GetQty(RemoveFromCart(AddToCart(map[], id, 1), id, 1), id) == 0
  {
  }

  /** Toggling twice is the identity. */
  lemma ToggleTwice(f: Favorites, id: string)
    ensures ToggleFavorite(ToggleFavorite(f, id), id) == f
  {
  }

  /** A toggle moves `favoritesCount` by exactly one. */
  lemma ToggleCount(f: Favorites, id: string)
    ensures id in f ==> FavoritesCount(ToggleFavorite(f, id)) == FavoritesCount(f) - 1
    ensures id !in f ==> FavoritesCount(ToggleFavorite(f, id)) == FavoritesCount(f) + 1
  {
  }
}

=== FILE: js_number.dfy ===
/**
 * The integer-valued JavaScript numbers the carousels compute with.
 *
 * The carousel indices are JavaScript numbers; the only non-integer value they can
 * reach is NaN, produced by `x % 0` when the item list is empty. `%` on JavaScript
 * numbers truncates toward zero, so the remainder takes the sign of the dividend,
 * unlike Dafny's Euclidean `%`.
 */
module JsNumber {

  datatype Num = Int(v: int) | NaN

  /** JavaScript `a + d` for an integer `d`: NaN absorbs. */
  function Add(a: Num, d: int): (r: Num)
    ensures r.NaN? <==> a.NaN?
    ensures a.Int? ==> r.v - a.v == d
  {
    match a
    case NaN => NaN
    case Int(x) => Int(x + d)
  }

  /** Truncating remainder on integers: the sign follows the dividend. */
  function TruncRem(a: int, n: int): (r: int)
    requires n != 0
    ensures a >= 0 ==> 0 <= r < (if n > 0 then n else -n)
    ensures a < 0 ==> -(if n > 0 then n else -n) < r <= 0
    ensures a >= 0 && n > 0 ==> r == a % n
    ensures (a - r) % (if n > 0 then n else -n) == 0
  {
    var m := if n > 0 then n else -n;
    if a >= 0 then
      var q, r := a / m, a % m;
      assert a == m * q + r;
      MultipleMod(m, q);
      r
    else
      var q, r := (-a) / m, (-a) % m;
      assert -a == m * q + r;
      assert a - -r == m * -q;
      MultipleMod(m, -q);
      -r
  }

  /** The remainder takes the dividend's sign, whatever the divisor's: `-7 % 3` is -1 and `7 % -3` is 1. */
  lemma TruncRemSigns()
    ensures TruncRem(-7, 3) == -1 && TruncRem(7, -3) == 1 && TruncRem(-7, -3) == -1
  {
  }

  /** A multiple of `m` leaves no remainder. */
  lemma MultipleMod(m: int, k: int)
    requires m > 0
    ensures (m * k) % m == 0
  {
    ModUnique(m * k, m, k);
  }

  /** The remainder is determined by any quotient that leaves a value in `[0, n)`. */
  lemma ModUnique(a: int, n: int, q: int)
    requires n >= 1 && 0 <= a - q * n < n
    ensures a % n == a - q * n
  {
    var d := q - a / n;
    assert a == (a / n) * n + a % n;
    assert d * n == a % n - (a - q * n);
    MulAwayFromZero(d, n);
  }

  /** A non-zero multiple of `n` is at least `n` away from zero. */
  lemma MulAwayFromZero(d: int, n: int)
    requires n >= 1
    ensures d >= 1 ==> d * n >= n
    ensures d <= -1 ==> d * n <= -n
  {
  }

  /** JavaScript `a % n`: NaN when the divisor is 0 or the dividend is NaN. */
  function Rem(a: Num, n: int): (r: Num)
    ensures r.NaN? <==> (a.NaN? || n == 0)
    ensures a.Int? && a.v >= 0 && n > 0 ==> r == Int(a.v % n)
  {
    match a
    case NaN => NaN
    case Int(x) => if n == 0 then NaN else Int(TruncRem(x, n))
  }

  /** A valid position in a list of `n` items. */
  predicate InRange(i: Num, n: int) {
    i.Int? && 0 <= i.v < n
  }
}

=== FILE: persistence.dfy ===
/**
 * `loadState` and `saveState` of src/context/ShopContext.tsx: the store's snapshot in the
 * browser's storage slot under the key `shop-state:v1`.
 *
 * The JSON text is abstracted to what `JSON.parse` makes of it. The loader validates
 * nothing beyond what the language forces on it: a falsy field falls back to its
 * default, any other value is taken as it is.
 */
module Persistence {
  import opened Wrappers
  import opened Cart

  const StorageKey: string := "shop-state:v1"

  /** What the `cart` field of a parsed document holds. */
  datatype CartField =
    | CartMissing              // absent or falsy: `parsed.cart || {}` gives an empty cart
    | CartEntries(entries: Cart) // an object whose values are integer quantities
    | CartOther                // any other truthy value; the loader keeps it as it is

  /** What the `favorites` field of a parsed document holds. */
  datatype FavField =
    | FavMissing               // absent or falsy: `parsed.favorites || []`
    | FavIds(ids: seq<string>) // an array of ids
    | FavText(text: string)    // a string: `new Set` iterates over its code points
    | FavNotIterable           // any other truthy value: `new Set` throws

  /** The outcome of `JSON.parse` on the stored text. */
  datatype Parse =
    | Unreadable               // not JSON, or the JSON `null` (reading `.cart` of it throws)
    | Parsed(cart: CartField, favorites: FavField)

  /** The stored text: empty, or a document as `JSON.parse` sees it. */
  datatype Raw = Blank | Json(doc: Parse)

  /** The storage slot; `None` when nothing is stored under the key. */
  type Slot = Option<Raw>

  /**
   * The cart the store holds in memory: a map of quantities, or a value the loader took
   * from storage that is not one, on which the model stops tracking the store's behaviour.
   */
  datatype CartValue = Entries(entries: Cart) | Untracked

  /** A `{cart, favorites}` state, in memory or loaded from storage. */
  datatype Snapshot = Snapshot(cart: CartValue, favorites: Favorites)

  /** The set `new Set(value)` builds from a favourites field that is iterable. */
  function FavoritesOf(f: FavField): (r: Favorites)
    requires !f.FavNotIterable?
    ensures f.FavMissing? ==> r == {}
    ensures f.FavIds? ==> forall id :: id in r <==> id in f.ids
    ensures f.FavText? ==> forall i :: 0 <= i < |f.text| ==> [f.text[i]] in r
    ensures f.FavText? ==> forall id :: id in r ==> |id| == 1 && id[0] in f.text
  {
    match f
    case FavMissing => {}
    case FavIds(ids) => set i | 0 <= i < |ids| :: ids[i]
    case FavText(text) => set i | 0 <= i < |text| :: [text[i]]
  }

  /** The cart the loader yields for a cart field. */
  function CartOf(c: CartField): (r: CartValue)
    ensures r.Untracked? <==> c.CartOther?
    ensures c.CartMissing? ==> r == Entries(map[])
    ensures c.CartEntries? ==> r == Entries(c.entries)
  {
    match c
    case CartMissing => Entries(map[])
    case CartEntries(entries) => Entries(entries)
    case CartOther => Untracked
  }

  /**
   * `loadState`: nothing for an empty or missing slot and for a document that cannot be
   * read; otherwise the document's fields with their defaults.
   */
  function LoadState(slot: Slot): (r: Option<Snapshot>)
    ensures slot == None || slot == Some(Blank) ==> r == None
    ensures slot == Some(Json(Unreadable)) ==> r == None
    ensures r.Some? <==> slot.Some? && slot.value.Json? && slot.value.doc.Parsed?
                         && !slot.value.doc.favorites.FavNotIterable?
    ensures r.Some? ==> r.value.cart == CartOf(slot.value.doc.cart)
    ensures r.Some? ==> r.value.favorites == FavoritesOf(slot.value.doc.favorites)
  {
    match slot
    case None => None
    case Some(Blank) => None
    case Some(Json(Unreadable)) => None
    case Some(Json(Parsed(c, f))) =>
      if f.FavNotIterable? then None else Some(Snapshot(CartOf(c), FavoritesOf(f)))
  }

  /** `Array.from(favorites)`: each member exactly once, in some order. */
  predicate IsListing(order: seq<string>, f: Favorites) {
    && (forall i, j :: 0 <= i < j < |order| ==> order[i] != order[j])
    && (forall i :: 0 <= i < |order| ==> order[i] in f)
    && (forall id :: id in f ==> id in order)
  }

  /** The document `JSON.stringify` writes for a snapshot, favourites listed in `order`. */
  function Serialize(s: Snapshot, order: seq<string>): (r: Raw)
    requires IsListing(order, s.favorites)
    ensures r.Json? && r.doc.Parsed? && r.doc.favorites == FavIds(order)
  {
    var c := match s.cart
      case Entries(entries) => CartEntries(entries)
      case Untracked => CartOther;
    Json(Parsed(c, FavIds(order)))
  }

  /**
   * `saveState`: a successful write replaces the slot with a document that loads back to
   * the same snapshot; a failed write is swallowed and leaves the slot as it was.
   */
  function SaveState(slot: Slot, s: Snapshot, order: seq<string>, writeOk: bool): (r: Slot)
    requires IsListing(order, s.favorites)
    ensures writeOk ==> LoadState(r) == Some(s)
    ensures !writeOk ==> r == slot
  {
    if writeOk then
      var raw := Serialize(s, order);
      assert FavoritesOf(raw.doc.favorites) == s.favorites;
      Some(raw)
    else slot
  }

  /** The order favourites are listed in does not matter: every listing loads the same set. */
  lemma {:induction false} ListingOrderIrrelevant(s: Snapshot, order1: seq<string>, order2: seq<string>)
    requires IsListing(order1, s.favorites)
    requires IsListing(order2, s.favorites)
    ensures LoadState(Some(Serialize(s, order1))) == LoadState(Some(Serialize(s, order2)))
  {
    assert FavoritesOf(FavIds(order1)) == s.favorites;
    assert FavoritesOf(FavIds(order2)) == s.favorites;
  }

  /** A string in the favourites field is taken apart into its characters. */
  lemma FavoritesFromText()
    ensures LoadState(Some(Json(Parsed(CartMissing, FavText("ab"))))) == Some(Snapshot(Entries(map[]), {"a", "b"}))
  {
    var r := FavoritesOf(FavText("ab"));
    assert "a" == ["ab"[0]] && "b" == ["ab"[1]];
    assert r == {"a", "b"};
  }

  /** A truthy cart that is not a map of quantities is kept, not reset to an empty cart. */
  lemma WrongTypedCartIsKept()
    ensures LoadState(Some(Json(Parsed(CartOther, FavMissing)))) == Some(Snapshot(Untracked, {}))
  {
  }
}

=== FILE: product_card.dfy ===
/**
 * The decisions a product card makes in src/components/ProductCard.tsx: which
 * availability badge to show, whether to show prices or a fallback label, the cart
 * quantity badge, and what its two buttons do to the shop store.
 */
module ProductCard {
  import opened Wrappers
  import opened Cart
  import opened ProductGrid

  /** `AvailabilityBadge`: "Nuevo" for a new product, else a label by availability; none when empty. */
  function Badge(availability: Availability, isNew: bool): (r: Option<string>)
    ensures isNew ==> r == Some("Nuevo")
    ensures r.Some? ==> r.value != ""
  {
    var text :=
      if isNew then "Nuevo"
      else if availability == Limited then "Limitado"
      else if availability == ComingSoon then "Próximamente"
      else "";
    if text == "" then None else Some(text)
  }

  /** Prices are shown when either price is positive. */
  predicate ShowPrices(p: Product) {
    p.btcPrice > 0.0 || p.ethPrice > 0.0
  }

  /** The price area: both prices, or a note in their place. */
  datatype PriceLabel = Prices(btc: real, eth: real) | Note(text: string)

  function PriceArea(p: Product): (r: PriceLabel)
    ensures r.Prices? <==> ShowPrices(p)
    ensures r.Prices? ==> r.btc == p.btcPrice && r.eth == p.ethPrice
  {
    if ShowPrices(p) then Prices(p.btcPrice, p.ethPrice)
    else Note(if p.availability == Limited then "Solo premium" else "Próximamente")
  }

  /** The quantity badge: shown when the cart holds a positive quantity, and showing it. */
  function QtyBadge(c: Cart, id: string): (r: Option<int>)
    ensures r.Some? <==> GetQty(c, id) > 0
    ensures r.Some? ==> r.value == GetQty(c, id)
  {
    if GetQty(c, id) > 0 then Some(GetQty(c, id)) else None
  }

  /** "Añadir": one unit of this product. */
  function AddClicked(c: Cart, p: Product): (r: Cart)
    ensures GetQty(r, p.id) == GetQty(c, p.id) + 1
    ensures forall other :: other != p.id ==> GetQty(r, other) == GetQty(c, other)
  {
    AddToCart(c, p.id, 1)
  }

  /** The heart: toggles this product's id only. */
  function HeartClicked(f: Favorites, p: Product): (r: Favorites)
    ensures IsFavorite(r, p.id) <==> !IsFavorite(f, p.id)
    ensures forall other :: other != p.id ==> (IsFavorite(r, other) <==> IsFavorite(f, other))
  {
    ToggleFavorite(f, p.id)
  }

  // ---------------------------------------------------------------------------
  // Properties
  // ---------------------------------------------------------------------------

  /** The badge for every availability when the product is not new. */
  lemma BadgeWhenNotNew(availability: Availability)
    ensures availability == Limited ==> Badge(availability, false) == Some("Limitado")
    ensures availability == ComingSoon ==> Badge(availability, false) == Some("Próximamente")
    ensures availability == InStock ==> Badge(availability, false) == None
  {
  }

  /** The note shown in place of prices. */
  lemma NoteWhenNoPrices(p: Product)
    requires !ShowPrices(p)
    ensures p.availability == Limited ==> PriceArea(p) == Note("Solo premium")
    ensures p.availability != Limited ==> PriceArea(p) == Note("Próximamente")
  {
  }

  /** After "Añadir", the card's quantity badge shows at least 1 on a cart that keeps its invariant. */
  lemma AddShowsBadge(c: Cart, p: Product)
    requires Positive(c)
    ensures QtyBadge(AddClicked(c, p), p.id) == Some(GetQty(c, p.id) + 1)
    ensures Positive(AddClicked(c, p))
  {
    AddKeepsPositive(c, p.id, 1);
  }

  /** Adding one unit raises the cart count by one. */
  lemma AddRaisesCount(c: Cart, p: Product)
    ensures CartCount(AddClicked(c, p)) == CartCount(c) + 1
  {
    AddToCartCount(c, p.id, 1);
  }

  /** Two presses of the heart leave the favourites as they were. */
  lemma HeartTwice(f: Favorites, p: Product)
    ensures HeartClicked(HeartClicked(f, p), p) == f
  {
    ToggleTwice(f, p.id);
  }
}

=== FILE: product_grid.dfy ===
/**
 * The catalogue filter of src/components/ProductGrid.tsx, and the product record of
 * src/components/ProductCard.tsx that it filters.
 *
 * The grid reads the `q` and `cat` query parameters, normalises the query (lower-case,
 * then trim), and keeps, in catalogue order, the products that match both the query and
 * the category.
 */
module ProductGrid {
  import opened Wrappers
  import opened Text
  import opened SearchParams

  datatype Availability = InStock | ComingSoon | Limited

  /** A catalogue entry; prices are JavaScript numbers, modelled as reals. */
  datatype Product = Product(
    id: string,
    name: string,
    slug: string,
    btcPrice: real,
    ethPrice: real,
    dosageMg: real,
    description: string,
    category: string,
    flavor: Option<string>,
    availability: Availability,
    isNew: bool,
    image: string,
    partner: Option<string>,
    tags: seq<string>)

  /** `(params.get("q") || "").toLowerCase().trim()`. */
  function NormalizeQuery(raw: Option<string>): (q: string)
    ensures |q| <= |raw.GetOr("")|
    ensures q == [] <==> AllWhitespace(raw.GetOr(""))
    ensures forall i :: 0 <= i < |q| ==> !IsUpper(q[i])
    ensures |q| > 0 ==> !IsWhitespace(q[0]) && !IsWhitespace(q[|q| - 1])
  {
    var l := Lower(raw.GetOr(""));
    LowerHasNoUpper(raw.GetOr(""));
    TrimKeepsNoUpper(l);
    assert AllWhitespace(l) <==> AllWhitespace(raw.GetOr("")) by {
      forall i | 0 <= i < |l| {
        LowerCharWhitespace(raw.GetOr("")[i]);
      }
    }
    Trim(l)
  }

  /** The query is a slice of the lower-cased text, with only whitespace cut from either end. */
  lemma NormalizeShape(raw: Option<string>)
    ensures var l := Lower(raw.GetOr("")); CutFrom(l, Leading(l), NormalizeQuery(raw))
  {
    var l := Lower(raw.GetOr(""));
    TrimShape(l);
    assert NormalizeQuery(raw) == Trim(l);
  }

  /** The search ignores case: a `q` and its lower-cased form give the same query and the same results. */
  lemma QueryIgnoresCase(ps: seq<Product>, s: string, cat: Option<string>)
    ensures NormalizeQuery(Some(Lower(s))) == NormalizeQuery(Some(s))
    ensures Filter(ps, NormalizeQuery(Some(Lower(s))), cat) == Filter(ps, NormalizeQuery(Some(s)), cat)
  {
    LowerIdempotent(s);
  }

  /** Some tag of `tags` contains `q` once lower-cased (`tags.some(...)`). */
  predicate SomeTagIncludes(tags: seq<string>, q: string) {
    exists i :: 0 <= i < |tags| && Includes(Lower(tags[i]), q)
  }

  /** The query test: an empty query matches everything. */
  predicate MatchesQuery(p: Product, q: string) {
    || q == []
    || Includes(Lower(p.name), q)
    || Includes(Lower(p.description), q)
    || SomeTagIncludes(p.tags, q)
  }

  /** The category test: a missing or empty category matches everything, otherwise exact equality. */
  predicate MatchesCategory(p: Product, cat: Option<string>) {
    cat.None? || cat.value == [] || p.category == cat.value
  }

  predicate Matches(p: Product, q: string, cat: Option<string>) {
    MatchesQuery(p, q) && MatchesCategory(p, cat)
  }

  /** `products.filter(...)`: the matching products, in catalogue order. */
  function Filter(ps: seq<Product>, q: string, cat: Option<string>): (r: seq<Product>)
    ensures |r| <= |ps|
    ensures forall p :: p in r <==> p in ps && Matches(p, q, cat)
  {
    if |ps| == 0 then []
    else if Matches(ps[0], q, cat) then [ps[0]] + Filter(ps[1..], q, cat)
    else Filter(ps[1..], q, cat)
  }

  /** The products the grid shows for the current query string. */
  function Visible(products: seq<Product>, params: Params): seq<Product> {
    Filter(products, NormalizeQuery(Get(params, "q")), Get(params, "cat"))
  }

  /** `a` is an order-preserving subsequence of `b`. */
  predicate IsSubsequence<T(==)>(a: seq<T>, b: seq<T>)
    decreases |b|
  {
    |a| == 0 || (|b| > 0 && (if a[0] == b[0] then IsSubsequence(a[1..], b[1..]) else IsSubsequence(a, b[1..])))
  }

  // ---------------------------------------------------------------------------
  // Properties
  // ---------------------------------------------------------------------------

  /** Filtering a concatenation filters each part: the filter keeps the catalogue's order. */
  lemma {:induction false} FilterAppend(a: seq<Product>, b: seq<Product>, q: string, cat: Option<string>)
    ensures Filter(a + b, q, cat) == Filter(a, q, cat) + Filter(b, q, cat)
  {
    if |a| == 0 {
      assert a + b == b;
    } else {
      assert (a + b)[1..] == a[1..] + b;
      FilterAppend(a[1..], b, q, cat);
    }
  }

  /** The result is a subsequence of the catalogue. */
  lemma {:induction false} FilterIsSubsequence(ps: seq<Product>, q: string, cat: Option<string>)
    ensures IsSubsequence(Filter(ps, q, cat), ps)
  {
    if |ps| > 0 {
      FilterIsSubsequence(ps[1..], q, cat);
      var rest := Filter(ps[1..], q, cat);
      if !Matches(ps[0], q, cat) {
        SubsequenceSkip(rest, ps);
      }
    }
  }

  /** A subsequence of the tail is a subsequence of the whole. */
  lemma {:induction false} SubsequenceSkip<T>(a: seq<T>, b: seq<T>)
    requires |b| > 0
    requires IsSubsequence(a, b[1..])
    ensures IsSubsequence(a, b)
    decreases |a| + |b|
  {
    if |a| > 0 && a[0] == b[0] {
      SubsequenceTail(a, b[1..]);
    }
  }

  /** Dropping the head of a subsequence keeps it a subsequence. */
  lemma {:induction false} SubsequenceTail<T>(a: seq<T>, b: seq<T>)
    requires |a| > 0
    requires IsSubsequence(a, b)
    ensures IsSubsequence(a[1..], b)
    decreases |a| + |b|
  {
    if a[0] != b[0] {
      SubsequenceTail(a, b[1..]);
      SubsequenceSkip(a[1..], b);
    } else if |a| > 1 {
      SubsequenceSkip(a[1..], b);
    }
  }

  /** With no query and no category, every product is shown. */
  lemma {:induction false} FilterAll(ps: seq<Product>, q: string, cat: Option<string>)
    requires q == []
    requires cat.None? || cat.value == []
    ensures Filter(ps, q, cat) == ps
  {
    if |ps| > 0 {
      assert Matches(ps[0], q, cat);
      FilterAll(ps[1..], q, cat);
      assert ps == [ps[0]] + ps[1..];
    }
  }

  /** An empty or whitespace-only `q` and no `cat` parameter show the whole catalogue. */
  lemma BlankSearchShowsAll(products: seq<Product>, params: Params)
    requires AllWhitespace(Get(params, "q").GetOr(""))
    requires Get(params, "cat").None? || Get(params, "cat").value == []
    ensures Visible(products, params) == products
  {
    FilterAll(products, NormalizeQuery(Get(params, "q")), Get(params, "cat"));
  }

  /** With a category, every shown product has exactly that category. */
  lemma CategoryIsExact(ps: seq<Product>, q: string, c: string)
    requires c != []
    ensures forall p :: p in Filter(ps, q, Some(c)) ==> p.category == c
  {
  }

  /**
   * With a non-empty query, every shown product has it in its lower-cased name,
   * description or some tag, and every catalogue product with it in none of them is left out.
   */
  lemma QueryMatchIsSubstring(ps: seq<Product>, q: string, cat: Option<string>)
    requires q != []
    ensures forall p :: p in Filter(ps, q, cat) ==>
      (exists i :: OccursAt(Lower(p.name), q, i)) ||
      (exists i :: OccursAt(Lower(p.description), q, i)) ||
      (exists j, i :: 0 <= j < |p.tags| && OccursAt(Lower(p.tags[j]), q, i))
    ensures forall p :: p in ps && !MatchesQuery(p, q) ==> p !in Filter(ps, q, cat)
  {
    forall p | p in Filter(ps, q, cat)
      ensures (exists i :: OccursAt(Lower(p.name), q, i)) ||
              (exists i :: OccursAt(Lower(p.description), q, i)) ||
              (exists j, i :: 0 <= j < |p.tags| && OccursAt(Lower(p.tags[j]), q, i))
    {
      IncludesIff(Lower(p.name), q);
      IncludesIff(Lower(p.description), q);
      if SomeTagIncludes(p.tags, q) {
        var j :| 0 <= j < |p.tags| && Includes(Lower(p.tags[j]), q);
        IncludesIff(Lower(p.tags[j]), q);
      }
    }
  }

  /**
   * The category test only narrows: the result is the query-only result filtered by
   * category, so it is never larger.
   */
  lemma {:induction false} CategoryNarrows(ps: seq<Product>, q: string, cat: Option<string>)
    ensures Filter(ps, q, cat) == Filter(Filter(ps, q, None), [], cat)
    ensures |Filter(ps, q, cat)| <= |Filter(ps, q, None)|
  {
    if |ps| > 0 {
      CategoryNarrows(ps[1..], q, cat);
    }
  }
}

=== FILE: search_params.dfy ===
/**
 * The query-string parameters the sidebar writes and the catalogue reads, as
 * `URLSearchParams` keeps them: an ordered list of name/value pairs in which a name
 * may occur more than once. Percent-encoding is not modelled.
 */
module SearchParams {
  import opened Wrappers

  datatype Param = Param(name: string, value: string)

  type Params = seq<Param>

  predicate Has(ps: Params, name: string) {
    exists i :: 0 <= i < |ps| && ps[i].name == name
  }

  /** A list has a name when its head or its tail has it. */
  lemma HasCons(ps: Params, name: string)
    requires |ps| > 0
    ensures Has(ps, name) <==> ps[0].name == name || Has(ps[1..], name)
  {
    if Has(ps[1..], name) {
      var i :| 0 <= i < |ps[1..]| && ps[1..][i].name == name;
      assert ps[i + 1].name == name;
    }
    if Has(ps, name) && ps[0].name != name {
      var i :| 0 <= i < |ps| && ps[i].name == name;
      assert ps[1..][i - 1].name == name;
    }
  }

  /** `params.get(name)`: the value of the first pair with that name. */
  function Get(ps: Params, name: string): (r: Option<string>)
    ensures r.None? <==> !Has(ps, name)
    ensures r.Some? ==> exists i :: 0 <= i < |ps| && ps[i] == Param(name, r.value) && !Has(ps[..i], name)
  {
    if |ps| == 0 then None
    else if ps[0].name == name then
      assert ps[..0] == [];
      Some(ps[0].value)
    else
      var r := Get(ps[1..], name);
      if r.Some? then
        FirstPairShift(ps, name, r.value);
        r
      else r
  }

  /** A first pair in the tail behind a head of another name is the first pair of the whole list. */
  lemma FirstPairShift(ps: Params, name: string, value: string)
    requires |ps| > 0 && ps[0].name != name
    requires exists j :: 0 <= j < |ps[1..]| && ps[1..][j] == Param(name, value) && !Has(ps[1..][..j], name)
    ensures exists i :: 0 <= i < |ps| && ps[i] == Param(name, value) && !Has(ps[..i], name)
  {
    var j :| 0 <= j < |ps[1..]| && ps[1..][j] == Param(name, value) && !Has(ps[1..][..j], name);
    var i := j + 1;
    assert ps[..i][1..] == ps[1..][..j];
    HasCons(ps[..i], name);
    assert ps[i] == Param(name, value);
  }

  /** `params.delete(name)`: every pair with that name goes; the others keep their order. */
  function Delete(ps: Params, name: string): (r: Params)
    ensures !Has(r, name)
    ensures |r| <= |ps|
  {
    if |ps| == 0 then []
    else if ps[0].name == name then Delete(ps[1..], name)
    else [ps[0]] + Delete(ps[1..], name)
  }

  /** `delete` keeps exactly the pairs whose name differs. */
  lemma {:induction false} DeleteMembers(ps: Params, name: string)
    ensures forall p :: p in Delete(ps, name) <==> p in ps && p.name != name
  {
    if |ps| > 0 {
      DeleteMembers(ps[1..], name);
      assert ps == [ps[0]] + ps[1..];
    }
  }

  /** Replaces the first pair with `name` by `Param(name, value)` and drops the later ones. */
  function SetFirst(ps: Params, name: string, value: string): (r: Params)
    requires Has(ps, name)
    decreases |ps|
  {
    if ps[0].name == name then [Param(name, value)] + Delete(ps[1..], name)
    else
      HasCons(ps, name);
      [ps[0]] + SetFirst(ps[1..], name, value)
  }

  /**
   * `params.set(name, value)`: the first pair with that name takes the new value and the
   * later ones are removed; with no such pair, the new pair is appended (`SetPosition`).
   */
  function Set(ps: Params, name: string, value: string): (r: Params)
    ensures Get(r, name) == Some(value)
    ensures Delete(r, name) == Delete(ps, name)
    ensures |r| == |Delete(ps, name)| + 1
  {
    if Has(ps, name) then
      SetFirstShape(ps, name, value);
      SetFirst(ps, name, value)
    else
      var r := ps + [Param(name, value)];
      DeleteAppend(ps, [Param(name, value)], name);
      DeleteAbsent(ps, name);
      GetAppend(ps, [Param(name, value)], name);
      r
  }

  // ---------------------------------------------------------------------------
  // Properties
  // ---------------------------------------------------------------------------

  /** Deleting a name that is not there changes nothing. */
  lemma {:induction false} DeleteAbsent(ps: Params, name: string)
    requires !Has(ps, name)
    ensures Delete(ps, name) == ps
  {
    if |ps| > 0 {
      HasCons(ps, name);
      DeleteAbsent(ps[1..], name);
    }
  }

  /** Deleting one name does not disturb the pairs of another. */
  lemma {:induction false} DeleteCommutes(ps: Params, a: string, b: string)
    ensures Delete(Delete(ps, a), b) == Delete(Delete(ps, b), a)
  {
    if |ps| > 0 {
      DeleteCommutes(ps[1..], a, b);
    }
  }

  /** After `set`, exactly one pair carries the name, and it holds the new value. */
  lemma {:induction false} SetFirstShape(ps: Params, name: string, value: string)
    requires Has(ps, name)
    ensures Get(SetFirst(ps, name, value), name) == Some(value)
    ensures Delete(SetFirst(ps, name, value), name) == Delete(ps, name)
    ensures |SetFirst(ps, name, value)| == |Delete(ps, name)| + 1
    decreases |ps|
  {
    var r := SetFirst(ps, name, value);
    if ps[0].name == name {
      DeleteAbsent(Delete(ps[1..], name), name);
      assert r[1..] == Delete(ps[1..], name);
    } else {
      HasCons(ps, name);
      SetFirstShape(ps[1..], name, value);
      assert r[1..] == SetFirst(ps[1..], name, value);
    }
  }

  /**
   * Where `set` puts the pair: in place of the first pair with the name, everything before
   * it untouched, or at the end when there was none.
   */
  lemma SetPosition(ps: Params, name: string, value: string)
    ensures var r := Set(ps, name, value);
      Has(ps, name) ==> exists i :: FirstAt(ps, name, i) && i < |r| && r[..i] == ps[..i] && r[i] == Param(name, value)
    ensures !Has(ps, name) ==> Set(ps, name, value) == ps + [Param(name, value)]
  {
    if Has(ps, name) {
      SetFirstPosition(ps, name, value);
    }
  }

  /** The first pair with `name` sits at `i`. */
  predicate FirstAt(ps: Params, name: string, i: int) {
    0 <= i < |ps| && ps[i].name == name && !Has(ps[..i], name)
  }

  lemma {:induction false} SetFirstPosition(ps: Params, name: string, value: string)
    requires Has(ps, name)
    ensures var r := SetFirst(ps, name, value);
      exists i :: FirstAt(ps, name, i) && i < |r| && r[..i] == ps[..i] && r[i] == Param(name, value)
    decreases |ps|
  {
    var r := SetFirst(ps, name, value);
    if ps[0].name == name {
      assert ps[..0] == [] && r[..0] == [];
      assert FirstAt(ps, name, 0);
    } else {
      HasCons(ps, name);
      SetFirstPosition(ps[1..], name, value);
      var r' := SetFirst(ps[1..], name, value);
      var j :| FirstAt(ps[1..], name, j) && j < |r'| && r'[..j] == ps[1..][..j] && r'[j] == Param(name, value);
      assert r == [ps[0]] + r';
      ConsPosition(ps[0], ps[1..], r', name, value, j);
      assert ps == [ps[0]] + ps[1..];
    }
  }

  /** A head of another name in front of both lists moves the first pair, and the prefix that matches, one place on. */
  lemma ConsPosition(x: Param, pt: Params, rt: Params, name: string, value: string, j: int)
    requires x.name != name
    requires FirstAt(pt, name, j) && j < |rt| && rt[..j] == pt[..j] && rt[j] == Param(name, value)
    ensures var ps, r := [x] + pt, [x] + rt;
      FirstAt(ps, name, j + 1) && j + 1 < |r| && r[..j + 1] == ps[..j + 1] && r[j + 1] == Param(name, value)
  {
    var ps, r := [x] + pt, [x] + rt;
    assert ps[1..] == pt;
    FirstAtShift(ps, name, j);
    assert r[..j + 1] == [x] + rt[..j];
    assert ps[..j + 1] == [x] + pt[..j];
  }

  /** The first pair with `name` in the tail is the first in the list when the head has another name. */
  lemma FirstAtShift(ps: Params, name: string, j: int)
    requires |ps| > 0 && ps[0].name != name && FirstAt(ps[1..], name, j)
    ensures FirstAt(ps, name, j + 1)
  {
    assert ps[..j + 1][1..] == ps[1..][..j];
    HasCons(ps[..j + 1], name);
  }

  /** `set` leaves `get` of every other name, and the other pairs' order, as they were. */
  lemma SetKeepsOthers(ps: Params, name: string, value: string, other: string)
    requires other != name
    ensures Get(Set(ps, name, value), other) == Get(ps, other)
    ensures Delete(Set(ps, name, value), name) == Delete(ps, name)
  {
    var r := Set(ps, name, value);
    DeleteGet(r, name, other);
    DeleteGet(ps, name, other);
  }

  /** `delete` leaves the pairs of every other name as they were, in order. */
  lemma DeleteKeepsOthers(ps: Params, name: string, other: string)
    requires other != name
    ensures Get(Delete(ps, name), other) == Get(ps, other)
    ensures Delete(Delete(ps, name), other) == Delete(Delete(ps, other), name)
  {
    DeleteGet(ps, name, other);
    DeleteCommutes(ps, name, other);
  }

  lemma {:induction false} DeleteGet(ps: Params, name: string, other: string)
    requires other != name
    ensures Get(Delete(ps, name), other) == Get(ps, other)
  {
    if |ps| > 0 {
      DeleteGet(ps[1..], name, other);
    }
  }

  lemma {:induction false} DeleteAppend(a: Params, b: Params, name: string)
    ensures Delete(a + b, name) == Delete(a, name) + Delete(b, name)
  {
    if |a| == 0 {
      assert a + b == b;
    } else {
      var x, t := a[0], a[1..];
      assert a + b == [x] + (t + b);
      assert a == [x] + t;
      DeleteCons(x, t + b, name);
      DeleteCons(x, t, name);
      DeleteAppend(t, b, name);
      if x.name != name {
        assert ([x] + Delete(t, name)) + Delete(b, name) == [x] + (Delete(t, name) + Delete(b, name));
      }
    }
  }

  /** `delete` on a list with a known head. */
  lemma DeleteCons(x: Param, t: Params, name: string)
    ensures Delete([x] + t, name) == if x.name == name then Delete(t, name) else [x] + Delete(t, name)
  {
    assert ([x] + t)[0] == x;
    assert ([x] + t)[1..] == t;
  }

  lemma {:induction false} GetAppend(a: Params, b: Params, name: string)
    requires !Has(a, name)
    ensures Get(a + b, name) == Get(b, name)
  {
    if |a| > 0 {
      assert (a + b)[1..] == a[1..] + b;
      HasCons(a, name);
      GetAppend(a[1..], b, name);
    } else {
      assert a + b == b;
    }
  }
}

=== FILE: shop_store.dfy ===
/**
 * The shop store's lifecycle (`ShopProvider` in src/context/ShopContext.tsx) as a state
 * machine over `{cart, favorites, hydrated, stored}`.
 *
 * The store mounts with empty collections and `hydrated` false. The hydrate effect runs
 * once: it loads the stored snapshot, replaces memory with it when there is one, and
 * sets `hydrated`. The persist effect writes the full snapshot after every change, but
 * only once `hydrated` is set. Every mutation builds a new cart or set, so the persist
 * effect's dependencies change on every mutation.
 *
 * The order `Array.from` lists the favourites in and whether the storage write succeeds
 * are not modelled; each step takes them as parameters.
 */
module ShopStore {
  import opened Wrappers
  import opened Cart
  import opened Persistence

  datatype Store = Store(cart: CartValue, favorites: Favorites, hydrated: bool, stored: Slot)

  /** A call of one of the store's mutation operations. */
  datatype Action =
    | Add(id: string, qty: int)
    | Remove(id: string, qty: int)
    | Toggle(id: string)

  /** The store as first rendered: empty collections, not hydrated, storage as found. */
  function Mount(stored: Slot): (st: Store)
    ensures st.cart == Entries(map[]) && st.favorites == {}
    ensures !st.hydrated && st.stored == stored
  {
    Store(Entries(map[]), {}, false, stored)
  }

  /** The in-memory `{cart, favorites}` pair. */
  function Memory(st: Store): Snapshot {
    Snapshot(st.cart, st.favorites)
  }

  /** The cart after an action; a cart the model does not track stays untracked. */
  function ApplyCart(cart: CartValue, a: Action): (r: CartValue)
    ensures r.Untracked? <==> cart.Untracked?
    ensures a.Toggle? ==> r == cart
    ensures cart.Entries? && a.Add? ==> r == Entries(AddToCart(cart.entries, a.id, a.qty))
    ensures cart.Entries? && a.Remove? ==> r == Entries(RemoveFromCart(cart.entries, a.id, a.qty))
  {
    match cart
    case Untracked => Untracked
    case Entries(c) =>
      match a
      case Add(id, qty) => Entries(AddToCart(c, id, qty))
      case Remove(id, qty) => Entries(RemoveFromCart(c, id, qty))
      case Toggle(_) => cart
  }

  /** The favourites after an action. */
  function ApplyFavorites(f: Favorites, a: Action): (r: Favorites)
    ensures !a.Toggle? ==> r == f
    ensures a.Toggle? ==> (a.id in r <==> a.id !in f)
    ensures a.Toggle? ==> forall other :: other != a.id ==> (other in r <==> other in f)
  {
    if a.Toggle? then ToggleFavorite(f, a.id) else f
  }

  /** The persist effect: the full snapshot is written, but only once hydrated. */
  function Persist(st: Store, order: seq<string>, writeOk: bool): (r: Store)
    requires IsListing(order, st.favorites)
    ensures Memory(r) == Memory(st) && r.hydrated == st.hydrated
    ensures !st.hydrated ==> r.stored == st.stored
    ensures st.hydrated && writeOk ==> LoadState(r.stored) == Some(Memory(st))
    ensures !writeOk ==> r.stored == st.stored
  {
    if st.hydrated then st.(stored := SaveState(st.stored, Memory(st), order, writeOk))
    else st
  }

  /** The store after the state update of a mutation, before the persist effect runs. */
  function Update(st: Store, a: Action): (r: Store)
    ensures r.hydrated == st.hydrated && r.stored == st.stored
  {
    st.(cart := ApplyCart(st.cart, a), favorites := ApplyFavorites(st.favorites, a))
  }

  /** One mutation followed by the persist effect it triggers. */
  function Dispatch(st: Store, a: Action, order: seq<string>, writeOk: bool): (r: Store)
    requires IsListing(order, ApplyFavorites(st.favorites, a))
    ensures r.hydrated == st.hydrated
    ensures r.cart == ApplyCart(st.cart, a) && r.favorites == ApplyFavorites(st.favorites, a)
    ensures !st.hydrated || !writeOk ==> r.stored == st.stored
    ensures st.hydrated && writeOk ==> LoadState(r.stored) == Some(Memory(r))
  {
    Persist(Update(st, a), order, writeOk)
  }

  /** The memory the hydrate effect leaves: the loaded snapshot if any, else memory as it was. */
  function Hydrated(st: Store): (r: Store)
    ensures r.hydrated && r.stored == st.stored
  {
    match LoadState(st.stored)
    case Some(s) => st.(cart := s.cart, favorites := s.favorites, hydrated := true)
    case None => st.(hydrated := true)
  }

  /** The hydrate effect, followed by the persist effect its change of `hydrated` triggers. */
  function Hydrate(st: Store, order: seq<string>, writeOk: bool): (r: Store)
    requires !st.hydrated
    requires IsListing(order, Hydrated(st).favorites)
    ensures r.hydrated
    ensures LoadState(st.stored).Some? ==> Memory(r) == LoadState(st.stored).value
    ensures LoadState(st.stored).None? ==> Memory(r) == Memory(st)
    ensures writeOk ==> LoadState(r.stored) == Some(Memory(r))
    ensures !writeOk ==> r.stored == st.stored
  {
    Persist(Hydrated(st), order, writeOk)
  }

  // ---------------------------------------------------------------------------
  // Properties of the lifecycle
  // ---------------------------------------------------------------------------

  /**
   * The hydration race: a mutation made before hydration is lost when a snapshot loads,
   * because the snapshot replaces memory instead of being merged with it.
   */
  lemma MutationBeforeHydrationIsOverwritten(
    st: Store, a: Action, order1: seq<string>, ok1: bool, order2: seq<string>, ok2: bool)
    requires !st.hydrated
    requires LoadState(st.stored).Some?
    requires IsListing(order1, ApplyFavorites(st.favorites, a))
    requires IsListing(order2, LoadState(st.stored).value.favorites)
    ensures var mutated := Dispatch(st, a, order1, ok1);
      IsListing(order2, Hydrated(mutated).favorites) &&
      Memory(Hydrate(mutated, order2, ok2)) == LoadState(st.stored).value
  {
    var mutated := Dispatch(st, a, order1, ok1);
    assert mutated.stored == st.stored;
  }

  /**
   * Without a snapshot, a mutation made before hydration survives it, and the hydration
   * then writes it to storage.
   */
  lemma MutationBeforeEmptyHydrationSurvives(
    st: Store, a: Action, order: seq<string>, ok1: bool)
    requires !st.hydrated
    requires LoadState(st.stored).None?
    requires IsListing(order, ApplyFavorites(st.favorites, a))
    ensures var mutated := Dispatch(st, a, order, ok1);
      IsListing(order, Hydrated(mutated).favorites) &&
      Memory(Hydrate(mutated, order, true)) == Memory(mutated) &&
      LoadState(Hydrate(mutated, order, true).stored) == Some(Memory(mutated))
  {
    var mutated := Dispatch(st, a, order, ok1);
    assert mutated.stored == st.stored;
  }

  /** Persisted state survives a reload: a fresh mount hydrates to the memory last written. */
  lemma ReloadRestoresMemory(st: Store, order: seq<string>, order2: seq<string>)
    requires st.hydrated
    requires IsListing(order, st.favorites)
    requires IsListing(order2, st.favorites)
    ensures var saved := Persist(st, order, true);
      IsListing(order2, Hydrated(Mount(saved.stored)).favorites) &&
      Memory(Hydrate(Mount(saved.stored), order2, true)) == Memory(st)
  {
  }

  /** The durable slot mirrors memory after every step whose write succeeds. */
  ghost predicate Mirrored(st: Store) {
    st.hydrated && LoadState(st.stored) == Some(Memory(st))
  }

  /** Once mirrored, a failed write is the only way for storage and memory to drift apart. */
  lemma DispatchKeepsMirror(st: Store, a: Action, order: seq<string>)
    requires Mirrored(st)
    requires IsListing(order, ApplyFavorites(st.favorites, a))
    ensures Mirrored(Dispatch(st, a, order, true))
  {
  }

  /** The store's invariant: a tracked cart holds only positive quantities. */
  ghost predicate Valid(st: Store) {
    st.cart.Entries? ==> Positive(st.cart.entries)
  }

  /** Every mutation keeps the invariant as long as adds use a positive amount. */
  lemma DispatchKeepsValid(st: Store, a: Action, order: seq<string>, writeOk: bool)
    requires Valid(st)
    requires a.Add? ==> a.qty >= 1
    requires IsListing(order, ApplyFavorites(st.favorites, a))
    ensures Valid(Dispatch(st, a, order, writeOk))
  {
    match st.cart
    case Untracked =>
    case Entries(c) =>
      match a
      case Add(id, qty) => AddKeepsPositive(c, id, qty);
      case Remove(id, qty) => RemoveKeepsPositive(c, id, qty);
      case Toggle(_) =>
  }

  /** A snapshot the store wrote itself hydrates into a valid store. */
  lemma HydrateFromOwnSnapshotIsValid(st: Store, order: seq<string>, writeOk: bool)
    requires !st.hydrated
    requires Valid(st)
    requires LoadState(st.stored).Some? ==> LoadState(st.stored).value.cart.Entries? ==>
               Positive(LoadState(st.stored).value.cart.entries)
    requires IsListing(order, Hydrated(st).favorites)
    ensures Valid(Hydrate(st, order, writeOk))
  {
  }
}

=== FILE: side_bar.dfy ===
/**
 * The navigation sidebar of src/components/SideBar.tsx: which links are marked active,
 * how the category buttons and the search box write the `cat` and `q` query
 * parameters, when the panel opens and closes, and what it announces to assistive
 * technology.
 *
 * The focus trap, body-scroll locking, the `matchMedia` listener and the "panic"
 * redirect are not modelled; the viewport is an input (`ViewportChange`), the debounce
 * timer is a `SyncQuery` event, and `router.replace` becomes the new parameter list.
 * `SyncQuery` assumes every earlier navigation has landed: it rewrites the current
 * parameters, where the debounced callback uses the `searchParams` it captured.
 */
module SideBar {
  import opened Wrappers
  import opened SearchParams
  import ProductGrid

  /** A navigation link; `caption` is the component's `label`, a reserved word in Dafny. */
  datatype Link = Link(caption: string, href: string)
  datatype ComputedLink = ComputedLink(caption: string, href: string, active: bool)

  /** `s.startsWith(p)`. */
  predicate StartsWith(s: string, p: string) {
    |p| <= |s| && s[..|p|] == p
  }

  /** A link is active on its own path, and, unless it is the root, on any path that starts with it. */
  predicate IsActive(pathname: Option<string>, href: string): (b: bool)
    ensures pathname == Some(href) ==> b
    ensures b ==> pathname.Some? && StartsWith(pathname.value, href)
    ensures href == "/" ==> (b <==> pathname == Some("/"))
  {
    || pathname == Some(href)
    || (href != "/" && pathname.Some? && StartsWith(pathname.value, href))
  }

  /** `computedLinks`: the links with their `active` flag added. */
  function ComputedLinks(links: seq<Link>, pathname: Option<string>): (r: seq<ComputedLink>)
    ensures |r| == |links|
    ensures forall i :: 0 <= i < |links| ==>
      r[i].caption == links[i].caption && r[i].href == links[i].href &&
      r[i].active == IsActive(pathname, links[i].href)
  {
    seq(|links|, i requires 0 <= i < |links| =>
      ComputedLink(links[i].caption, links[i].href, IsActive(pathname, links[i].href)))
  }

  /** The parameters after choosing a category: set when non-empty, deleted otherwise. */
  function WithCategory(params: Params, cat: Option<string>): (r: Params)
    ensures cat.Some? && cat.value != "" ==> Get(r, "cat") == cat
    ensures !(cat.Some? && cat.value != "") ==> Get(r, "cat") == None
    ensures Delete(r, "cat") == Delete(params, "cat")
  {
    if cat.Some? && cat.value != "" then
      Set(params, "cat", cat.value)
    else
      DeleteAbsent(Delete(params, "cat"), "cat");
      Delete(params, "cat")
  }

  /** The parameters after the search box syncs: `q` set when the query is non-empty, deleted otherwise. */
  function WithQuery(params: Params, query: string): (r: Params)
    ensures query != "" ==> Get(r, "q") == Some(query)
    ensures query == "" ==> Get(r, "q") == None
    ensures Delete(r, "q") == Delete(params, "q")
  {
    if query != "" then
      Set(params, "q", query)
    else
      DeleteAbsent(Delete(params, "q"), "q");
      Delete(params, "q")
  }

  datatype Sidebar = Sidebar(isOpen: bool, isDesktop: bool, mounted: bool, query: string, params: Params)

  /** The sidebar as first rendered: closed, not yet mounted, the search box showing `q`. */
  function Init(params: Params): (st: Sidebar)
    ensures !st.isOpen && !st.mounted
    ensures st.query == Get(params, "q").GetOr("")
  {
    Sidebar(false, false, false, Get(params, "q").GetOr(""), params)
  }

  datatype Event =
    | Mounted
    | ViewportChange(desktop: bool)
    | OpenMenu
    | CloseMenu
    | OverlayClick
    | LinkClick
    | EscapeKey
    | ChooseCategory(cat: Option<string>)
    | TypeQuery(text: string)
    | SyncQuery            // the debounced sync of the search box fires

  /** The sidebar after one event. */
  function Step(st: Sidebar, e: Event): (r: Sidebar)
    ensures e.EscapeKey? ==> r.isOpen == (st.isOpen && st.isDesktop)
    ensures e.ChooseCategory? ==> !r.isOpen && r.params == WithCategory(st.params, e.cat)
    ensures e.SyncQuery? ==> r == st.(params := WithQuery(st.params, st.query))
    ensures r.isDesktop == (if e.ViewportChange? then e.desktop else st.isDesktop)
    ensures e.Mounted? ==> r == st.(mounted := true)
    ensures e.ViewportChange? ==> r == st.(isDesktop := e.desktop)
    ensures e.TypeQuery? ==> r == st.(query := e.text)
    ensures e.ChooseCategory? ==> r == st.(params := WithCategory(st.params, e.cat), isOpen := false)
  {
    match e
    case Mounted => st.(mounted := true)
    case ViewportChange(desktop) => st.(isDesktop := desktop)
    case OpenMenu => st.(isOpen := true)
    case CloseMenu => st.(isOpen := false)
    case OverlayClick => st.(isOpen := false)
    case LinkClick => st.(isOpen := false)
    case EscapeKey => if st.isOpen && !st.isDesktop then st.(isOpen := false) else st
    case ChooseCategory(cat) => st.(params := WithCategory(st.params, cat), isOpen := false)
    case TypeQuery(text) => st.(query := text)
    case SyncQuery => st.(params := WithQuery(st.params, st.query))
  }

  /** `aria-hidden` of the panel. */
  function AriaHidden(st: Sidebar): (h: bool)
    ensures h <==> !st.mounted || (!st.isDesktop && !st.isOpen)
  {
    if st.mounted then (if st.isDesktop then false else !st.isOpen) else true
  }

  /** `tabIndex` of the panel. */
  function TabIndex(st: Sidebar): (t: int)
    ensures t == 0 || t == -1
  {
    if st.mounted then (if st.isDesktop then 0 else if st.isOpen then 0 else -1) else -1
  }

  // ---------------------------------------------------------------------------
  // Properties
  // ---------------------------------------------------------------------------

  /** The root link is active only on the root path itself. */
  lemma RootActiveOnlyAtRoot(pathname: Option<string>)
    ensures IsActive(pathname, "/") <==> pathname == Some("/")
  {
  }

  /** Any other link is active exactly on the paths that start with it. */
  lemma NonRootActiveOnPrefix(path: string, href: string)
    requires href != "/"
    ensures IsActive(Some(path), href) <==> StartsWith(path, href)
  {
    if path == href {
      assert path[..|href|] == path;
    }
  }

  /** The prefix test is on characters, not on path segments. */
  lemma PrefixIsNotSegmentAware()
    ensures IsActive(Some("/shopping"), "/shop")
  {
    assert "/shopping"[..5] == "/shop";
  }

  /** The panel is hidden from assistive technology exactly when it cannot take focus. */
  lemma TabIndexFollowsAriaHidden(st: Sidebar)
    ensures TabIndex(st) == 0 <==> !AriaHidden(st)
    ensures TabIndex(st) == -1 <==> AriaHidden(st)
  {
  }

  /** Before mounting the panel is hidden; after, on desktop it is shown, on mobile only while open. */
  lemma AriaHiddenCases(st: Sidebar)
    ensures !st.mounted ==> AriaHidden(st)
    ensures st.mounted && st.isDesktop ==> !AriaHidden(st)
    ensures st.mounted && !st.isDesktop ==> AriaHidden(st) == !st.isOpen
  {
  }

  /** Escape closes an open mobile panel and does nothing otherwise. */
  lemma EscapeOnlyClosesOpenMobile(st: Sidebar)
    ensures st.isOpen && !st.isDesktop ==> !Step(st, EscapeKey).isOpen
    ensures !(st.isOpen && !st.isDesktop) ==> Step(st, EscapeKey) == st
  {
  }

  /** Choosing a category leaves every other parameter as it was, `q` included. */
  lemma CategoryKeepsQuery(st: Sidebar, cat: Option<string>)
    ensures Get(Step(st, ChooseCategory(cat)).params, "q") == Get(st.params, "q")
  {
    var r := Step(st, ChooseCategory(cat)).params;
    DeleteGet(r, "cat", "q");
    DeleteGet(st.params, "cat", "q");
  }

  /** The query sync leaves every other parameter as it was, `cat` included. */
  lemma QuerySyncKeepsCategory(st: Sidebar)
    ensures Get(Step(st, SyncQuery).params, "cat") == Get(st.params, "cat")
  {
    var r := Step(st, SyncQuery).params;
    DeleteGet(r, "q", "cat");
    DeleteGet(st.params, "q", "cat");
  }

  /** What is typed reaches the catalogue once the sync fires: the grid filters by it. */
  lemma TypedQueryReachesGrid(st: Sidebar, text: string, products: seq<ProductGrid.Product>)
    ensures var r := Step(Step(st, TypeQuery(text)), SyncQuery);
      && Get(r.params, "q") == (if text == "" then None else Some(text))
      && ProductGrid.Visible(products, r.params) ==
         ProductGrid.Filter(products, ProductGrid.NormalizeQuery(Some(text)), Get(st.params, "cat"))
  {
    var typed := Step(st, TypeQuery(text));
    assert typed == st.(query := text);
    var params := Step(typed, SyncQuery).params;
    assert params == WithQuery(st.params, text);
    QuerySyncKeepsCategory(typed);
    SameTextSameQuery(Get(params, "q"), Some(text));
  }

  /** The grid's query depends only on the text of `q`, a missing `q` reading as empty. */
  lemma SameTextSameQuery(a: Option<string>, b: Option<string>)
    requires a.GetOr("") == b.GetOr("")
    ensures ProductGrid.NormalizeQuery(a) == ProductGrid.NormalizeQuery(b)
  {
  }

  /** The menu button opens the panel and changes nothing else. */
  lemma MenuButtonOpens(st: Sidebar)
    ensures Step(st, OpenMenu) == st.(isOpen := true)
  {
  }

  /** Following a link closes the panel and changes nothing else. */
  lemma LinkClickCloses(st: Sidebar)
    ensures Step(st, LinkClick) == st.(isOpen := false)
  {
  }

  /** The close button closes the panel and changes nothing else. */
  lemma CloseButtonCloses(st: Sidebar)
    ensures Step(st, CloseMenu) == st.(isOpen := false)
  {
  }

  /** A click on the overlay closes the panel and changes nothing else. */
  lemma OverlayCloses(st: Sidebar)
    ensures Step(st, OverlayClick) == st.(isOpen := false)
  {
  }

  /** After a category button, the catalogue shows only products of that category. */
  lemma CategoryButtonFiltersGrid(st: Sidebar, c: string, products: seq<ProductGrid.Product>)
    requires c != ""
    ensures forall p :: p in ProductGrid.Visible(products, Step(st, ChooseCategory(Some(c))).params) ==>
      p.category == c
  {
    var params := Step(st, ChooseCategory(Some(c))).params;
    assert params == WithCategory(st.params, Some(c));
    assert Get(params, "cat") == Some(c);
    ProductGrid.CategoryIsExact(products, ProductGrid.NormalizeQuery(Get(params, "q")), c);
  }

  /** After "clear filter", the category no longer restricts the catalogue. */
  lemma ClearFilterShowsAllCategories(st: Sidebar, products: seq<ProductGrid.Product>)
    ensures var params := Step(st, ChooseCategory(None)).params;
      ProductGrid.Visible(products, params) ==
      ProductGrid.Filter(products, ProductGrid.NormalizeQuery(Get(params, "q")), None)
  {
    var params := Step(st, ChooseCategory(None)).params;
    assert Get(params, "cat") == None;
  }
}

=== FILE: text.dfy ===
/**
 * The JavaScript string operations the catalogue search uses: `trim`, `toLowerCase`
 * and `includes`.
 *
 * `trim` removes exactly the characters ECMAScript classes as WhiteSpace or
 * LineTerminator. `toLowerCase` is modelled on the ASCII and Latin-1 letters only.
 */
module Text {

  /** ECMAScript WhiteSpace and LineTerminator code points: the ones `trim` removes. */
  predicate IsWhitespace(c: char) {
    || c == '\t' || c == '\n' || c == '\U{000B}' || c == '\U{000C}' || c == '\r' || c == ' '
    || c == '\U{00A0}' || c == '\U{1680}' || ('\U{2000}' <= c <= '\U{200A}')
    || c == '\U{2028}' || c == '\U{2029}' || c == '\U{202F}' || c == '\U{205F}'
    || c == '\U{3000}' || c == '\U{FEFF}'
  }

  predicate AllWhitespace(s: string) {
    forall i :: 0 <= i < |s| ==> IsWhitespace(s[i])
  }

  /** An upper-case letter `toLowerCase` maps: A-Z, and À-Þ except the sign ×. */
  predicate IsUpper(c: char) {
    ('A' <= c <= 'Z') || ('\U{00C0}' <= c <= '\U{00DE}' && c != '\U{00D7}')
  }

  /** `toLowerCase` on one character; every upper-case letter lies 0x20 below its lower case. */
  function LowerChar(c: char): (r: char)
    ensures IsUpper(c) ==> r as int == c as int + 0x20
    ensures !IsUpper(c) ==> r == c
    ensures !IsUpper(r)
  {
    if IsUpper(c) then (c as int + 0x20) as char else c
  }

  /** `s.toLowerCase()`. */
  function Lower(s: string): (r: string)
    ensures |r| == |s|
    ensures forall i :: 0 <= i < |s| ==> r[i] == LowerChar(s[i])
  {
    seq(|s|, i requires 0 <= i < |s| => LowerChar(s[i]))
  }

  /** Lower-casing a lower-cased string changes nothing. */
  lemma LowerIdempotent(s: string)
    ensures Lower(Lower(s)) == Lower(s)
  {
  }

  /** Lower-casing never turns whitespace into something else, or the reverse. */
  lemma LowerCharWhitespace(c: char)
    ensures IsWhitespace(LowerChar(c)) <==> IsWhitespace(c)
  {
  }

  /** `trimStart`: the suffix left after dropping the leading whitespace. */
  function TrimStart(s: string): (r: string)
    ensures |r| <= |s| && r == s[|s| - |r|..]
    ensures AllWhitespace(s[..|s| - |r|])
    ensures |r| > 0 ==> !IsWhitespace(r[0])
    decreases |s|
  {
    if |s| > 0 && IsWhitespace(s[0]) then
      var r := TrimStart(s[1..]);
      assert s[..|s| - |r|] == [s[0]] + s[1..][..|s| - 1 - |r|];
      r
    else s
  }

  /** `trimEnd`: the prefix left after dropping the trailing whitespace. */
  function TrimEnd(s: string): (r: string)
    ensures |r| <= |s| && r == s[..|r|]
    ensures AllWhitespace(s[|r|..])
    ensures |r| > 0 ==> !IsWhitespace(r[|r| - 1])
    decreases |s|
  {
    if |s| > 0 && IsWhitespace(s[|s| - 1]) then
      var r := TrimEnd(s[..|s| - 1]);
      assert s[|r|..] == s[..|s| - 1][|r|..] + [s[|s| - 1]];
      r
    else s
  }

  /** How many leading whitespace characters `trimStart` drops. */
  function Leading(s: string): (k: nat)
    ensures k <= |s|
  {
    |s| - |TrimStart(s)|
  }

  /**
   * `s.trim()`: both cuts, the leading one first. Nothing is left exactly when `s` is all
   * whitespace, and what is left has no whitespace at either end; `TrimShape` says where
   * in `s` it lies.
   */
  function Trim(s: string): (r: string)
    ensures |r| <= |s|
    ensures r == [] <==> AllWhitespace(s)
    ensures |r| > 0 ==> !IsWhitespace(r[0]) && !IsWhitespace(r[|r| - 1])
  {
    var t := TrimStart(s);
    TrimCuts(s, |s| - |t|, t, TrimEnd(t));
    TrimEnd(t)
  }

  /** `r` is the slice of `s` that starts at `k`, with only whitespace cut from either side. */
  predicate CutFrom(s: string, k: nat, r: string) {
    && k + |r| <= |s| && r == s[k..k + |r|]
    && AllWhitespace(s[..k]) && AllWhitespace(s[k + |r|..])
  }

  /**
   * What `trim` leaves: the slice of `s` that starts after the leading whitespace,
   * neither starts nor ends with whitespace, and has only whitespace behind it.
   */
  lemma TrimShape(s: string)
    ensures CutFrom(s, Leading(s), Trim(s))
    ensures var r := Trim(s); |r| > 0 ==> !IsWhitespace(r[0]) && !IsWhitespace(r[|r| - 1])
  {
    TrimShapeAt(s, Leading(s), Trim(s));
  }

  /** `TrimShape` with the cut position and the result named, so that only the cuts are in view. */
  lemma TrimShapeAt(s: string, k: nat, r: string)
    requires k == Leading(s) && r == Trim(s)
    ensures k + |r| <= |s| && r == s[k..k + |r|]
    ensures AllWhitespace(s[..k]) && AllWhitespace(s[k + |r|..])
    ensures |r| > 0 ==> !IsWhitespace(r[0]) && !IsWhitespace(r[|r| - 1])
  {
    var t := TrimStart(s);
    assert r == TrimEnd(t);
    TrimCuts(s, k, t, r);
  }

  /**
   * Cutting whitespace off the front of `s` at `k`, then off the back of what is left:
   * what remains is one slice of `s`, and it is empty exactly when `s` is all whitespace.
   */
  lemma TrimCuts(s: string, k: nat, t: string, r: string)
    requires k <= |s| && t == s[k..] && AllWhitespace(s[..k])
    requires |t| > 0 ==> !IsWhitespace(t[0])
    requires |r| <= |t| && r == t[..|r|] && AllWhitespace(t[|r|..])
    requires |r| > 0 ==> !IsWhitespace(r[|r| - 1])
    ensures k + |r| <= |s| && r == s[k..k + |r|]
    ensures AllWhitespace(s[..k]) && AllWhitespace(s[k + |r|..])
    ensures |r| > 0 ==> !IsWhitespace(r[0]) && !IsWhitespace(r[|r| - 1])
    ensures r == [] <==> AllWhitespace(s)
  {
    assert s[k + |r|..] == t[|r|..];
    assert |r| > 0 ==> r[0] == t[0];
    assert |t| > 0 ==> t[0] == s[k];
    if r == [] {
      assert t[|r|..] == t;
      assert s[..k] == s;
    }
  }

  /** Trimming a trimmed string changes nothing. */
  lemma TrimIdempotent(s: string)
    ensures Trim(Trim(s)) == Trim(s)
  {
    var r := Trim(s);
    TrimShape(s);
    if |r| > 0 {
      assert TrimStart(r) == r;
      assert TrimEnd(r) == r;
    }
  }

  /** No character of `s` is an upper-case letter `toLowerCase` would map. */
  predicate NoUpper(s: string) {
    forall i :: 0 <= i < |s| ==> !IsUpper(s[i])
  }

  /** Lower-casing leaves no upper-case letter. */
  lemma LowerHasNoUpper(s: string)
    ensures NoUpper(Lower(s))
  {
  }

  /** Trimming cannot introduce an upper-case letter: what it leaves is a slice. */
  lemma TrimKeepsNoUpper(s: string)
    requires NoUpper(s)
    ensures NoUpper(Trim(s))
  {
    var t := Trim(s);
    TrimShape(s);
    var k := Leading(s);
    forall i | 0 <= i < |t|
      ensures !IsUpper(t[i])
    {
      assert t[i] == s[k + i];
    }
  }

  /** The leading-whitespace cut commutes with lower-casing. */
  lemma {:induction false} TrimStartLower(s: string)
    ensures TrimStart(Lower(s)) == Lower(TrimStart(s))
    decreases |s|
  {
    if |s| > 0 {
      LowerCharWhitespace(s[0]);
      assert Lower(s)[1..] == Lower(s[1..]);
      TrimStartLower(s[1..]);
    }
  }

  /** The trailing-whitespace cut commutes with lower-casing. */
  lemma {:induction false} TrimEndLower(s: string)
    ensures TrimEnd(Lower(s)) == Lower(TrimEnd(s))
    decreases |s|
  {
    if |s| > 0 {
      LowerCharWhitespace(s[|s| - 1]);
      assert Lower(s)[..|s| - 1] == Lower(s[..|s| - 1]);
      TrimEndLower(s[..|s| - 1]);
    }
  }

  /** Lower-casing then trimming, as the search does, is the same as trimming then lower-casing. */
  lemma TrimLowerCommute(s: string)
    ensures Trim(Lower(s)) == Lower(Trim(s))
  {
    TrimStartLower(s);
    TrimEndLower(TrimStart(s));
  }

  /** `q` occurs in `s` starting at position `i`. */
  predicate OccursAt(s: string, q: string, i: int) {
    0 <= i && i + |q| <= |s| && s[i..i + |q|] == q
  }

  /** `s.includes(q)`: a scan from the left; the empty string occurs everywhere. */
  predicate Includes(s: string, q: string)
    decreases |s|
  {
    |q| <= |s| && (s[..|q|] == q || (|s| > 0 && Includes(s[1..], q)))
  }

  /** `includes` holds exactly when `q` occurs in `s` at some position. */
  lemma {:induction false} IncludesIff(s: string, q: string)
    ensures Includes(s, q) <==> exists i :: OccursAt(s, q, i)
    decreases |s|
  {
    OccursAtStart(s, q);
    if |q| <= |s| && |s| > 0 {
      IncludesIff(s[1..], q);
      if exists i :: OccursAt(s, q, i) {
        var i :| OccursAt(s, q, i);
        if i > 0 {
          OccursInTail(s, q, i);
        }
      }
      if exists j :: OccursAt(s[1..], q, j) {
        var j :| OccursAt(s[1..], q, j);
        OccursAfterHead(s, q, j);
      }
    } else if |q| > |s| {
      assert forall i :: !OccursAt(s, q, i);
    }
  }

  /** An occurrence at 0 is a matching prefix. */
  lemma OccursAtStart(s: string, q: string)
    ensures OccursAt(s, q, 0) <==> |q| <= |s| && s[..|q|] == q
  {
  }

  /** An occurrence past the first character is an occurrence in the tail, one place earlier. */
  lemma OccursInTail(s: string, q: string, i: int)
    requires i > 0 && OccursAt(s, q, i)
    ensures OccursAt(s[1..], q, i - 1)
  {
    assert s[1..][i - 1..i - 1 + |q|] == s[i..i + |q|];
  }

  /** An occurrence in the tail is an occurrence in the whole string, one place later. */
  lemma OccursAfterHead(s: string, q: string, j: int)
    requires |s| > 0 && OccursAt(s[1..], q, j)
    ensures OccursAt(s, q, j + 1)
  {
    assert s[1..][j..j + |q|] == s[j + 1..j + 1 + |q|];
  }

}

=== FILE: wrappers.dfy ===
/** Optional values, standing in for JavaScript's `null`/`undefined`. */
module Wrappers {

  datatype Option<+T> = None | Some(value: T) {

    /** The wrapped value, or `default` when there is none (JavaScript's `x ?? d`). */
    function GetOr(default: T): (r: T)
      ensures Some? ==> r == value
      ensures None? ==> r == default
    {
      match this
      case Some(v) => v
      case None => default
    }
  }
}
